=== FILE: README.md ===
# AntiLdapInjection encoders, modelled in Dafny

AntiLdapInjection escapes untrusted text before it is placed inside an LDAP
search filter (RFC 4515, section 3) or inside a distinguished name
(RFC 2253, section 2.4). This project models three parts of it:

- the safe-list table engine (`SafeList.cs`);
- the two encoders built on that engine (`Encoder.cs`);
- the public facade (`LdapEncoder.cs`).

A safe list is a table of 256 slots, one per byte value. A slot is either
`None` or `Some(escape)`. `None` means "safe": the byte is written as it is.
`Some(escape)` holds the characters written instead of the byte. Building a
table is imperative:

- `Generate` fills a new `array` with a generator's escape for every slot.
- `PunchSafeList` and `PunchHolesIfNeeded` clear the listed slots in place.
- The distinguished-name table also overwrites its seven forced characters
  `, + " \ < > ;` with a backslash and the character.

Each encoder then walks the input bytes. It writes into a character buffer
three times the input's length, advancing a running `length` index. The
distinguished-name encoder checks three position rules before the table: a
leading space, a leading `#` and a trailing space.

The model has seven modules, one per file:

| module | what it holds |
|---|---|
| `Wrappers` | `Option` |
| `Hex` | the .NET `"x2"` / `"X2"` and decimal renderings the generators use, each with its parser |
| `SafeList` | the table engine, with tables as `array<Entry>` and a spec function `Punched` on `seq<Entry>` |
| `Encoder` | the safe-character iterators, the table builders, the two encoders as methods over arrays, and the functions `FilterEncoding` / `DistinguishedNameEncoding` they are proved against |
| `EncoderProperties` | what the encodings promise |
| `EncoderExamples` | the test and documentation vectors |
| `LdapEncoder` | the facade |

Modelling choices:

- An input is `Option<seq<Byte>>`. `None` stands for a null string, and
  the bytes are what the source gets from its UTF-8 conversion.
- The facts proved about the encodings:
  - the exact shape of both tables;
  - the filter encoding is a per-byte homomorphism;
  - the filter encoding has an inverse (`FilterRoundTrip`);
  - a filter input comes back unchanged exactly when all its bytes are
    filter-safe (`FilterEncodingUnchangedIff`); a one-byte name does so
    exactly when the byte is name-safe and is neither a space nor '#'
    (`DistinguishedNameSingleByte`);
  - the 3 × n buffer bound, in unbounded arithmetic (the source's 32-bit
    size computation is not modelled, see "Left out");
  - filter encoding is not idempotent: encoding twice changes the text
    exactly when the first pass escaped something (`FilterReencoding`);
  - the order of precedence of the position rules, and that only the first
    and last byte are subject to them;
  - every vector in the library's tests.
- `EncoderExamples.DistinguishedNameEncodingCollision` shows that
  distinguished-name encoding has no inverse. Two different inputs encode
  to the same text: the UTF-8 bytes of "ač" (61 C4 8D) and the ASCII text
  "a#C4#8D". This happens because `#` is safe inside a name and is also the
  prefix of the hex escapes. This follows from the safe list as designed.

## Model

| member | source | states |
|---|---|---|
| Hex.HexDigit | src/AntiLdapInjection/Internal/Microsoft.Security.Application/CodeCharts/SafeList.cs:139 | the digit for a nibble is a hex digit of the requested case whose value is the nibble, and it is '0' exactly for 0 |
| Hex.HexDigits | src/AntiLdapInjection/Internal/Microsoft.Security.Application/CodeCharts/SafeList.cs:139 | the shortest hex rendering: digits of one case, no leading zero, reads back as the value; one digit below 16, two below 256 |
| Hex.FormatHex2 | src/AntiLdapInjection/Internal/Microsoft.Security.Application/CodeCharts/SafeList.cs:175 | the "x2"/"X2" rendering has at least two digits of one case, reads back as the value, is exactly two digits for a byte, and has no leading zero when longer |
| Hex.FormatHex2OfByte | src/AntiLdapInjection/Internal/Microsoft.Security.Application/CodeCharts/SafeList.cs:175 | for a byte the "x2"/"X2" rendering is its high nibble's digit then its low nibble's digit |
| Hex.DecimalDigits | src/AntiLdapInjection/Internal/Microsoft.Security.Application/CodeCharts/SafeList.cs:121 | the invariant-culture decimal rendering: decimal digits, no leading zero, reads back as the value |
| SafeList.WithPrefix | src/AntiLdapInjection/Internal/Microsoft.Security.Application/CodeCharts/SafeList.cs:238-251 | the prefixed array has one more slot than the value, the prefix in slot 0, and the value's characters in order after it |
| SafeList.StringToCharArrayWithPrefix | src/AntiLdapInjection/Internal/Microsoft.Security.Application/CodeCharts/SafeList.cs:238-251 | the array built slot by slot has length one more than the value, the prefix first and the value copied in order, so it equals WithPrefix |
| SafeList.StringToCharArrayWithHashPrefix | src/AntiLdapInjection/Internal/Microsoft.Security.Application/CodeCharts/SafeList.cs:191-194 | '#' followed by exactly the value |
| SafeList.StringToCharArrayWithPercentPrefix | src/AntiLdapInjection/Internal/Microsoft.Security.Application/CodeCharts/SafeList.cs:209-212 | '%' followed by exactly the value |
| SafeList.StringToCharArrayWithSlashPrefix | src/AntiLdapInjection/Internal/Microsoft.Security.Application/CodeCharts/SafeList.cs:227-230 | '\' followed by exactly the value |
| SafeList.HashThenValueGenerator | src/AntiLdapInjection/Internal/Microsoft.Security.Application/CodeCharts/SafeList.cs:119-122 | '#' then decimal digits without a leading zero that read back as the value |
| SafeList.HashThenHexValueGenerator | src/AntiLdapInjection/Internal/Microsoft.Security.Application/CodeCharts/SafeList.cs:137-140 | '#' then at least two upper-case hex digits that read back as the value; three characters for a byte |
| SafeList.PercentThenHexValueGenerator | src/AntiLdapInjection/Internal/Microsoft.Security.Application/CodeCharts/SafeList.cs:155-158 | '%' then at least two lower-case hex digits that read back as the value; three characters for a byte |
| SafeList.SlashThenHexValueGenerator | src/AntiLdapInjection/Internal/Microsoft.Security.Application/CodeCharts/SafeList.cs:173-176 | '\' then at least two lower-case hex digits that read back as the value; three characters for a byte |
| SafeList.SlashThenHexOfByte | src/AntiLdapInjection/Internal/Microsoft.Security.Application/CodeCharts/SafeList.cs:173-176 | for a byte the filter escape is exactly '\', the high nibble and the low nibble in lower case |
| SafeList.HashThenHexOfByte | src/AntiLdapInjection/Internal/Microsoft.Security.Application/CodeCharts/SafeList.cs:137-140 | for a byte the name escape is exactly '#', the high nibble and the low nibble in upper case |
| SafeList.Generate | src/AntiLdapInjection/Internal/Microsoft.Security.Application/CodeCharts/SafeList.cs:40-50 | a new table of length + 1 slots whose slot i holds the generator's value for i |
| SafeList.PunchedAt | src/AntiLdapInjection/Internal/Microsoft.Security.Application/CodeCharts/SafeList.cs:450-459 | after punching a list, a slot is None exactly when it is listed and keeps its old value otherwise |
| SafeList.PunchedSafeSlots | src/AntiLdapInjection/Internal/Microsoft.Security.Application/CodeCharts/SafeList.cs:101-104 | the safe slots after punching are the safe slots before plus the listed ones |
| SafeList.PunchedConcat | src/AntiLdapInjection/Internal/Microsoft.Security.Application/CodeCharts/SafeList.cs:454-457 | punching one list and then another is punching their concatenation |
| SafeList.PunchedIdempotent | src/AntiLdapInjection/Internal/Microsoft.Security.Application/CodeCharts/SafeList.cs:454-457 | punching the same list twice is punching it once |
| SafeList.PunchedCommute | src/AntiLdapInjection/Internal/Microsoft.Security.Application/CodeCharts/SafeList.cs:454-457 | two lists punched in either order give the same table |
| SafeList.PunchHolesIfNeeded | src/AntiLdapInjection/Internal/Microsoft.Security.Application/CodeCharts/SafeList.cs:450-459 | when not needed the table is unchanged; when needed it is the old table punched by the list: listed slots None, all others unchanged |
| SafeList.PunchSafeList | src/AntiLdapInjection/Internal/Microsoft.Security.Application/CodeCharts/SafeList.cs:101-104 | every listed slot becomes None and no other slot changes |
| SafeList.IsFlagSet | src/AntiLdapInjection/Internal/Microsoft.Security.Application/CodeCharts/Lower.cs:35-38 | a chart is selected only by a non-zero flag word and a non-zero chart flag; a flag wholly contained in the word is selected exactly when it is non-zero, and one sharing no bit with the word is not (LowerMiddle.cs, Middle.cs, UpperMiddle.cs and Upper.cs carry the same test) |
| SafeList.EnabledPointsNone | src/AntiLdapInjection/Internal/Microsoft.Security.Application/CodeCharts/SafeList.cs:258-291 | with no flag set, no chart contributes a point |
| SafeList.SelectedPoints | src/AntiLdapInjection/Internal/Microsoft.Security.Application/CodeCharts/SafeList.cs:70-93 | skipping a super-range whose flags are zero changes nothing: what a selection punches is always exactly the points of the charts its flags enable |
| SafeList.PunchCodeCharts | src/AntiLdapInjection/Internal/Microsoft.Security.Application/CodeCharts/SafeList.cs:258-291 | the table is the old table punched by the points of every chart whose flag is set, in catalog order |
| SafeList.PunchUnicodeThrough | src/AntiLdapInjection/Internal/Microsoft.Security.Application/CodeCharts/SafeList.cs:61-94 | the table is the old one punched by the five super-ranges' selected points in order; with all five selections zero it is unchanged |
| Encoder.FilterEncodingSafeList | src/AntiLdapInjection/Internal/Microsoft.Security.Application/Encoder.cs:160-169 | yields exactly the filter-safe values (printable ASCII except ( ) * / \), in increasing order |
| Encoder.DistinguishedNameSafeList | src/AntiLdapInjection/Internal/Microsoft.Security.Application/Encoder.cs:197-214 | yields exactly the name-safe values (printable ASCII except , + " \ < > & ! \| = - ' ;), in increasing order |
| Encoder.InitialiseFilterSafeList | src/AntiLdapInjection/Internal/Microsoft.Security.Application/Encoder.cs:146-153 | a new 256-slot array equal to the filter table: None for safe bytes, '\' + "x2" otherwise |
| Encoder.InitialiseDistinguishedNameSafeList | src/AntiLdapInjection/Internal/Microsoft.Security.Application/Encoder.cs:175-190 | a new 256-slot array equal to the name table: forced characters '\' + c, safe bytes None, '#' + "X2" otherwise |
| Encoder.EscapeDistinguishedNameCharacter | src/AntiLdapInjection/Internal/Microsoft.Security.Application/Encoder.cs:221-224 | the slot of c becomes '\' and c, whatever it held; no other slot changes |
| Encoder.EncodeNext | src/AntiLdapInjection/Internal/Microsoft.Security.Application/Encoder.cs:63-77 | encoding one more byte appends exactly what that byte becomes |
| Encoder.FilterEscapeLength | src/AntiLdapInjection/Internal/Microsoft.Security.Application/Encoder.cs:60 | every filter escape is three characters long, so a 3 × n buffer (n unbounded) suffices |
| Encoder.DistinguishedNameEscapeLength | src/AntiLdapInjection/Internal/Microsoft.Security.Application/Encoder.cs:103 | every name escape is two or three characters long, so a 3 × n buffer (n unbounded) suffices |
| Encoder.WriteChars | src/AntiLdapInjection/Internal/Microsoft.Security.Application/Encoder.cs:68-71 | the characters are copied after the first `length` ones, which are kept, and the index moves past them |
| Encoder.FilterEncode | src/AntiLdapInjection/Internal/Microsoft.Security.Application/Encoder.cs:50-80 | null stays null, empty stays empty, otherwise the result is the filter encoding of the bytes, between n and 3n characters long |
| Encoder.FilterBytes | src/AntiLdapInjection/Internal/Microsoft.Security.Application/Encoder.cs:60-79 | the buffer loop writes every byte's escape or the byte itself, in order, within n..3n characters |
| Encoder.DistinguishedNameEncode | src/AntiLdapInjection/Internal/Microsoft.Security.Application/Encoder.cs:89-140 | null stays null, empty stays empty, otherwise the result is the name encoding under the given rules, between n and 3n characters long |
| Encoder.DistinguishedNameBytes | src/AntiLdapInjection/Internal/Microsoft.Security.Application/Encoder.cs:103-139 | the buffer loop writes each byte as its position rule or table entry says, in order, within n..3n characters |
| EncoderProperties.FilterTableShape | src/AntiLdapInjection/Internal/Microsoft.Security.Application/Encoder.cs:146-169 | a filter slot is None exactly for a filter-safe byte, and otherwise '\' and the byte's two lower-case hex digits |
| EncoderProperties.DistinguishedNameTableShape | src/AntiLdapInjection/Internal/Microsoft.Security.Application/Encoder.cs:175-224 | forced characters map to '\' and themselves; a slot is None exactly for a name-safe byte; every other byte maps to '#' and two upper-case hex digits |
| EncoderProperties.SpaceAndHashAreDistinguishedNameSafe | src/AntiLdapInjection/Internal/Microsoft.Security.Application/Encoder.cs:197-214 | space and '#' have no table escape: only the position rules escape them |
| EncoderProperties.EncodeConcat | src/AntiLdapInjection/Internal/Microsoft.Security.Application/Encoder.cs:63-77 | the encoding of xs + ys is the encoding of xs followed by that of ys |
| EncoderProperties.EncodeSingle | src/AntiLdapInjection/Internal/Microsoft.Security.Application/Encoder.cs:65-76 | one byte encodes to its escape, or to itself when its slot is None |
| EncoderProperties.FilterEncodingConcat | src/AntiLdapInjection/Internal/Microsoft.Security.Application/Encoder.cs:63-77 | filter encoding distributes over concatenation of inputs |
| EncoderProperties.EncodeVerbatim | src/AntiLdapInjection/Internal/Microsoft.Security.Application/Encoder.cs:74-76 | bytes whose slots are all None are written out unchanged |
| EncoderProperties.FilterEncodingLength | src/AntiLdapInjection/Internal/Microsoft.Security.Application/Encoder.cs:60-79 | the filter encoding is one character per safe byte and three per escaped byte |
| EncoderProperties.FilterEscapedCountZero | src/AntiLdapInjection/Internal/Microsoft.Security.Application/Encoder.cs:160-169 | no byte is escaped exactly when every byte is filter-safe |
| EncoderProperties.FilterEncodingUnchangedIff | src/AntiLdapInjection/Internal/Microsoft.Security.Application/Encoder.cs:63-77 | the filter encoder returns its input unchanged exactly when every byte is filter-safe |
| EncoderProperties.FilterDecodeByte | src/AntiLdapInjection/Internal/Microsoft.Security.Application/Encoder.cs:65-76 | decoding one byte's filter encoding in front of any text gives back that byte |
| EncoderProperties.FilterReencoding | src/AntiLdapInjection/Internal/Microsoft.Security.Application/Encoder.cs:63-77 | reading a filter encoding back as bytes and encoding it again gives the same string exactly when no input byte needed escaping |
| EncoderProperties.FilterRoundTrip | src/AntiLdapInjection/Internal/Microsoft.Security.Application/Encoder.cs:63-77 | decoding a filter encoding gives back every input byte in order |
| EncoderProperties.DistinguishedNameWithoutRules | src/AntiLdapInjection/Internal/Microsoft.Security.Application/Encoder.cs:106-136 | with both rules off, name encoding is plain table encoding |
| EncoderProperties.DistinguishedNameInterior | src/AntiLdapInjection/Internal/Microsoft.Security.Application/Encoder.cs:106-136 | before the last byte, only the first byte is treated by position; the rest go through the table |
| EncoderProperties.DistinguishedNameStructure | src/AntiLdapInjection/Internal/Microsoft.Security.Application/Encoder.cs:106-136 | a name of two or more bytes is its first byte by position, the interior through the table, and its last byte by position |
| EncoderProperties.DistinguishedNameSingleByte | src/AntiLdapInjection/Internal/Microsoft.Security.Application/Encoder.cs:110-136 | a one-byte name comes back unchanged exactly when the byte is name-safe and is neither a space nor '#' |
| EncoderProperties.DistinguishedNameEnds | src/AntiLdapInjection/Internal/Microsoft.Security.Application/Encoder.cs:110-124 | the first byte is a leading space, a leading '#' or a table lookup, in that order; the last is a trailing space or a table lookup |
| EncoderProperties.DistinguishedNamePlainPrefix | src/AntiLdapInjection/Internal/Microsoft.Security.Application/Encoder.cs:106-136 | with no space or '#' at the front and no space at the end, every prefix is encoded through the table alone |
| EncoderProperties.DistinguishedNamePlain | src/AntiLdapInjection/Internal/Microsoft.Security.Application/Encoder.cs:106-136 | such a name is encoded through the table alone, whatever the flags |
| EncoderExamples.FilterSafeTextUnchanged | src/AntiLdapInjection/Internal/Microsoft.Security.Application/Encoder.cs:63-77 | filter-safe ASCII text is encoded as itself |
| EncoderExamples.FilterEscapedByte | src/AntiLdapInjection/Internal/Microsoft.Security.Application/Encoder.cs:65-71 | an unsafe byte alone becomes '\' and its two lower-case hex digits |
| EncoderExamples.FilterEncodesParentheses | test/AntiLdapInjection.Tests/LdapEncoderTests.cs:41-42 | parentheses around safe text become \28 and \29, and the text is kept |
| EncoderExamples.FilterParenthesesExample | test/AntiLdapInjection.Tests/LdapEncoderTests.cs:41-42 | "Parens R Us (for all your parenthetical needs)" becomes "Parens R Us \28for all your parenthetical needs\29" |
| EncoderExamples.FilterNotIdempotent | test/AntiLdapInjection.Tests/LdapEncoderTests.cs:55-56 | "*" encodes to "\2a", and encoding "\2a" again gives "\5c2a", a different string |
| EncoderExamples.FilterAsteriskExample | test/AntiLdapInjection.Tests/LdapEncoderTests.cs:55-56 | "*" becomes "\2a" |
| EncoderExamples.FilterEncodesBackslash | test/AntiLdapInjection.Tests/LdapEncoderTests.cs:69-70 | a backslash inside safe text becomes \5c, and the text is kept |
| EncoderExamples.FilterBackslashExample | test/AntiLdapInjection.Tests/LdapEncoderTests.cs:69-70 | "C:\MyFile" becomes "C:\5cMyFile" |
| EncoderExamples.FilterBinaryExample | test/AntiLdapInjection.Tests/LdapEncoderTests.cs:83-85 | NUL NUL NUL EOT becomes "\00\00\00\04" |
| EncoderExamples.FilterAccentedExample | test/AntiLdapInjection.Tests/LdapEncoderTests.cs:98-99 | the UTF-8 bytes of "Lučić" become "Lu\c4\8di\c4\87" |
| EncoderExamples.FilterControlCharacterExamples | test/AntiLdapInjection.Tests/LdapEncoderTests.cs:112-113 | NUL becomes "\00" and DEL becomes "\7f" |
| EncoderExamples.FilterInjectionCharactersEscaped | test/AntiLdapInjection.Tests/LdapEncoderTests.cs:140-146 | NUL ( ) \ * and / never come back unchanged |
| EncoderExamples.DistinguishedNameSafeTextUnchanged | src/AntiLdapInjection/Internal/Microsoft.Security.Application/Encoder.cs:125-136 | name-safe ASCII text goes through the table unchanged |
| EncoderExamples.DistinguishedNameOfText | src/AntiLdapInjection/Internal/Microsoft.Security.Application/Encoder.cs:106-136 | when the interior is safe text, only the first and last characters can change |
| EncoderExamples.LeadingSpacesExample | test/AntiLdapInjection.Tests/LdapEncoderTests.cs:214-215 | "  abcdef" becomes "\  abcdef" with the initial rules, and stays "  abcdef" without them |
| EncoderExamples.TrailingSpacesExample | test/AntiLdapInjection.Tests/LdapEncoderTests.cs:228-229 | "abcdef  " becomes "abcdef \ " |
| EncoderExamples.SingleSpaceExample | test/AntiLdapInjection.Tests/LdapEncoderTests.cs:242-243 | " " becomes "\ ", escaped once |
| EncoderExamples.LeadingHashesExample | test/AntiLdapInjection.Tests/LdapEncoderTests.cs:256-257 | "##abcdef" becomes "\##abcdef" with the initial rules, and stays "##abcdef" without them |
| EncoderExamples.FinalRuleOffExample | test/AntiLdapInjection.Tests/LdapEncoderTests.cs:301-304 | with the final rule off, "abcdef# " stays "abcdef# " |
| EncoderExamples.DistinguishedNameEscapedByte | src/AntiLdapInjection/Internal/Microsoft.Security.Application/Encoder.cs:125-131 | a byte that is neither forced nor safe becomes '#' and two upper-case hex digits |
| EncoderExamples.DistinguishedNameControlCharacterExamples | test/AntiLdapInjection.Tests/LdapEncoderTests.cs:315-318 | NUL becomes "#00" and DEL becomes "#7F" |
| EncoderExamples.ForcedCharactersExample | test/AntiLdapInjection.Tests/LdapEncoderTests.cs:184-185 | the seven forced characters each come back as a backslash and themselves |
| EncoderExamples.DistinguishedNameAccentedExample | src/AntiLdapInjection/LdapEncoder.cs:96 | the UTF-8 bytes of "Lučić" become "Lu#C4#8Di#C4#87" in a name |
| EncoderExamples.DistinguishedNameInjectionCharactersEscaped | test/AntiLdapInjection.Tests/LdapEncoderTests.cs:198-204 | & ! \| = < > , + - " ' and ; never come back unchanged |
| EncoderExamples.DistinguishedNameEncodingCollision | src/AntiLdapInjection/Internal/Microsoft.Security.Application/Encoder.cs:197-214 | two different inputs, the UTF-8 bytes of "ač" (61 C4 8D) and the ASCII text "a#C4#8D", encode to the same name, so name encoding cannot be read back |
| LdapEncoder.FilterEncode | src/AntiLdapInjection/LdapEncoder.cs:67-70 | the encoder's result, unchanged: null for null, empty for empty, decodes back to the input, and equals the input exactly when every byte is filter-safe |
| LdapEncoder.DistinguishedNameEncode | src/AntiLdapInjection/LdapEncoder.cs:99-102 | the three-argument form with both rules on: null for null, empty for empty, first byte and last byte by position, the rest through the table |
| LdapEncoder.DistinguishedNameEncodeWithRules | src/AntiLdapInjection/LdapEncoder.cs:153-160 | the encoder's result with both flags passed through: null for null, empty for empty, n..3n characters, each end by its rule, plain table encoding with both rules off |

## Left out

- The `Lazy<char[][]>` caches (`Encoder.cs:37-43`) are not modelled.
  - They exist for one-time, thread-safe initialisation.
  - Each encoder builds its table by calling `InitialiseFilterSafeList` or
    `InitialiseDistinguishedNameSafeList`. Those methods are deterministic
    and their results are proved equal to `FilterTable()` and
    `DistinguishedNameTable()`, so one build equals any other.
- The UTF-8 conversion (`Encoding.UTF8.GetBytes`, `Encoder.cs:58` and
  `:101`) is a library call outside the model.
  - The encoders take the byte sequence as their input.
  - The examples use `AsciiBytes` for ASCII text and give the UTF-8 bytes of
    "Lučić" (C4 8D and C4 87) directly.
  - A string that is non-empty but has no bytes cannot arise, so "empty" is
    modelled as the empty byte sequence.
- The .NET `ToString("x2" / "X2" / invariant decimal)` calls are replaced by
  the `Hex` module's renderings.
  - The generators are modelled over non-negative values only. The source
    passes them `int` values, but only with the indices 0..length of
    `Generate`. A negative value would render as two's-complement hex for
    the hex generators and as '-' plus digits for `HashThenValueGenerator`,
    and neither is modelled.
- SafeList.Generate: requires `length >= -1`. A smaller length makes the
  source's array allocation fault, and that fault is not modelled as a
  result. The 32-bit `length + 1` (`SafeList.cs:42`) is not modelled
  either: at `length == 2147483647` it wraps and the allocation throws,
  while the model allocates 2147483648 slots.
- Encoder.FilterEncode: the 32-bit buffer size `bytes.Length * 3`
  (`Encoder.cs:60`) and its `OverflowException` or
  `IndexOutOfRangeException` for inputs of 715827883 bytes or more are not
  modelled; the model's unbounded `int` encodes every input.
- Encoder.FilterBytes: the same 32-bit buffer-size overflow, and its
  exception, is not modelled; the n..3n bound holds in unbounded
  arithmetic.
- Encoder.DistinguishedNameEncode: the 32-bit buffer size
  `bytes.Length * 3` (`Encoder.cs:103`) and its exception for inputs of
  715827883 bytes or more are not modelled.
- Encoder.DistinguishedNameBytes: the same 32-bit buffer-size overflow,
  and its exception, is not modelled.
- LdapEncoder.FilterEncode, LdapEncoder.DistinguishedNameEncode and
  LdapEncoder.DistinguishedNameEncodeWithRules inherit the same gap: they
  never fail for a very large input.
- SafeList.PunchHolesIfNeeded: requires every listed position to be a slot
  of the table. The source does not check this, and an outside position
  throws; that fault is not modelled as a result.
- SafeList.PunchSafeList: the same in-bounds requirement and the same
  unmodelled fault as PunchHolesIfNeeded.
- SafeList.PunchCodeCharts: requires every point of every enabled chart to
  be a slot of the table. On a 256-slot table nearly every Unicode chart has
  points outside it, where the source throws; that fault is not modelled.
- SafeList.PunchUnicodeThrough: requires every point the five selections
  punch to be a slot of the table, for the same reason as PunchCodeCharts.
- The code-chart data and flag enums are not part of this model. This covers
  `Lower.cs` through `Upper.cs` and `LowerCodeCharts.cs` through
  `UpperCodeCharts.cs`.
  - A chart is an abstract `CodeChart(flag, points)`. Each of the five
    `PunchCodeCharts` overloads is one generic `PunchCodeCharts` over a
    catalog that the caller supplies. `PunchUnicodeThrough` takes the five
    selections as parameters.
  - The catalog order of the Unicode blocks is not modelled.
  - The flag collision between EthiopicExtended and BlockElements is not
    modelled. Neither is `SafeList.cs:370`, which gates EthiopicExtended on
    the BlockElements flag.
  - The encoders never call these.
- Doc-comment examples that contradict the code are not stated as
  properties. The code and the tests are followed instead.
  - Upper-case filter escapes `\2A`, `\5C` and `Lu\C4\8Di\C4\87`
    (`LdapEncoder.cs:61-62` and `:64`): the code writes lower case
    (`"x2"`), and the test at `LdapEncoderTests.cs:98-99` expects
    `Lu\c4\8di\c4\87`.
  - `\, \+ \" \\ \< \>` for the term `, + \ " \ < >`
    (`LdapEncoder.cs:92`, repeated at `:126`, `:136` and `:146`): the term
    has seven characters and the code escapes each one, giving
    `\, \+ \\ \" \\ \< \>`.
  - "hello \ " with two spaces (`LdapEncoder.cs:94`): the code gives
    "hello\ ".
  - "#1" and "#0a" for `HashThenHexValueGenerator` (`SafeList.cs:132-133`):
    "X2" gives "#01" and "#0A".
- The inner copy loop `for (var j …) array[length++] = array2[j]` of both
  encoders is the method `Encoder.WriteChars`. The per-byte walk of each
  encoder is its own method (`Encoder.FilterBytes`,
  `Encoder.DistinguishedNameBytes`), over the table array. The final
  `new string(array, 0, length)` is `chars[..length]`.
- C# overloading does not exist in Dafny. The three-argument
  `LdapEncoder.DistinguishedNameEncode` is named
  `DistinguishedNameEncodeWithRules`.
- Characters are Dafny `char`. The encoders only write characters below 256,
  so .NET's 16-bit `char` adds nothing here.

=== FILE: encoder.dfy ===
/**
 * The two LDAP encoders (Encoder.cs): the filter-value encoder of RFC 4515,
 * section 3, and the distinguished-name encoder of RFC 2253, section 2.4.
 *
 * Each encoder builds its mode's 256-slot safe list, walks the input bytes
 * and writes into a character buffer three times the input's length
 * through a running `length` index. The input is the byte sequence the
 * source obtains from its UTF-8 conversion; None stands for a null string.
 */
module Encoder {
  import opened Wrappers
  import opened Hex
  import opened SafeList

  type Byte = b: int | 0 <= b < 256

  // ---------------------------------------------------------------------
  // The safe characters of each mode
  // ---------------------------------------------------------------------

  /** Printable ASCII except the filter specials ( ) * / and \. */
  predicate IsFilterSafe(i: int)
  {
    32 <= i <= 126 && i != 40 && i != 41 && i != 42 && i != 47 && i != 92
  }

  /** Printable ASCII except , + " \ < > & ! | = - ' and ;. */
  predicate IsDistinguishedNameSafe(i: int)
  {
    32 <= i <= 126
    && i != 44 && i != 43
    && i != 34 && i != 92
    && i != 60 && i != 62
    && i != 38 && i != 33
    && i != 124 && i != 61
    && i != 45 && i != 39
    && i != 59
  }

  /** The seven characters a distinguished name escapes as a backslash and the character itself. */
  predicate IsForcedDistinguishedNameCharacter(i: int)
  {
    i == ',' as int || i == '+' as int || i == '"' as int || i == '\\' as int
    || i == '<' as int || i == '>' as int || i == ';' as int
  }

  /** The safe filter characters, in increasing order, as the counting loop yields them. */
  method FilterEncodingSafeList() returns (safe: seq<int>)
    ensures forall i :: i in safe <==> IsFilterSafe(i)
    ensures forall j, k :: 0 <= j < k < |safe| ==> safe[j] < safe[k]
  {
    safe := [];
    for i := 32 to 127
      invariant forall x :: x in safe <==> IsFilterSafe(x) && x < i
      invariant forall j :: 0 <= j < |safe| ==> 32 <= safe[j] < i
      invariant forall j, k :: 0 <= j < k < |safe| ==> safe[j] < safe[k]
    {
      if i != 40 && i != 41 && i != 42 && i != 47 && i != 92 {
        safe := safe + [i];
      }
    }
  }

  /** The safe distinguished-name characters, in increasing order, as the counting loop yields them. */
  method DistinguishedNameSafeList() returns (safe: seq<int>)
    ensures forall i :: i in safe <==> IsDistinguishedNameSafe(i)
    ensures forall j, k :: 0 <= j < k < |safe| ==> safe[j] < safe[k]
  {
    safe := [];
    for i := 32 to 127
      invariant forall x :: x in safe <==> IsDistinguishedNameSafe(x) && x < i
      invariant forall j :: 0 <= j < |safe| ==> 32 <= safe[j] < i
      invariant forall j, k :: 0 <= j < k < |safe| ==> safe[j] < safe[k]
    {
      if i != 44 && i != 43
        && i != 34 && i != 92
        && i != 60 && i != 62
        && i != 38 && i != 33
        && i != 124 && i != 61
        && i != 45 && i != 39
        && i != 59
      {
        safe := safe + [i];
      }
    }
  }

  // ---------------------------------------------------------------------
  // The two tables
  // ---------------------------------------------------------------------

  /** The filter slot of byte b: safe, or '\' and two lower-case hex digits. */
  function FilterEntry(b: Byte): Entry
  {
    if IsFilterSafe(b) then None else Some(SlashThenHexValueGenerator(b))
  }

  /** The distinguished-name slot of byte b: forced, safe, or '#' and two upper-case hex digits. */
  function DistinguishedNameEntry(b: Byte): Entry
  {
    if IsForcedDistinguishedNameCharacter(b) then Some(['\\', b as char])
    else if IsDistinguishedNameSafe(b) then None
    else Some(HashThenHexValueGenerator(b))
  }

  function FilterTable(): seq<Entry>
  {
    seq(256, b requires 0 <= b < 256 => FilterEntry(b))
  }

  function DistinguishedNameTable(): seq<Entry>
  {
    seq(256, b requires 0 <= b < 256 => DistinguishedNameEntry(b))
  }

  /** Builds the filter table: every slot '\' + "x2", then the safe characters punched. */
  method InitialiseFilterSafeList() returns (safeList: array<Entry>)
    ensures fresh(safeList) && safeList[..] == FilterTable()
  {
    safeList := Generate(255, SlashThenHexValueGenerator);
    var safe := FilterEncodingSafeList();
    assert InBounds(safe, safeList.Length) by {
      forall k | 0 <= k < |safe| ensures 0 <= safe[k] < 256 {
        assert safe[k] in safe;
      }
    }
    PunchSafeList(safeList, safe);
  }

  /**
   * Builds the distinguished-name table: every slot '#' + "X2", the safe
   * characters punched, then the seven forced characters overwritten.
   */
  method InitialiseDistinguishedNameSafeList() returns (safeList: array<Entry>)
    ensures fresh(safeList) && safeList[..] == DistinguishedNameTable()
  {
    safeList := Generate(255, HashThenHexValueGenerator);
    var safe := DistinguishedNameSafeList();
    assert InBounds(safe, safeList.Length) by {
      forall k | 0 <= k < |safe| ensures 0 <= safe[k] < 256 {
        assert safe[k] in safe;
      }
    }
    PunchSafeList(safeList, safe);
    ghost var punched := safeList[..];

    EscapeDistinguishedNameCharacter(safeList, ',');
    EscapeDistinguishedNameCharacter(safeList, '+');
    EscapeDistinguishedNameCharacter(safeList, '"');
    EscapeDistinguishedNameCharacter(safeList, '\\');
    EscapeDistinguishedNameCharacter(safeList, '<');
    EscapeDistinguishedNameCharacter(safeList, '>');
    EscapeDistinguishedNameCharacter(safeList, ';');

    forall b | 0 <= b < 256 ensures safeList[b] == DistinguishedNameEntry(b) {
      if !IsForcedDistinguishedNameCharacter(b) {
        assert safeList[b] == punched[b];
      }
    }
  }

  /** Overwrites the slot of c with a backslash and c, whatever it held before. */
  method EscapeDistinguishedNameCharacter(safeList: array<Entry>, c: char)
    requires (c as int) < safeList.Length
    modifies safeList
    ensures safeList[..] == old(safeList[..])[c as int := Some(['\\', c])]
  {
    safeList[c as int] := Some(['\\', c]);
  }

  // ---------------------------------------------------------------------
  // What the encoders produce
  // ---------------------------------------------------------------------

  /** What one byte becomes under a table: its escape sequence, or the byte itself. */
  function EmitByte(t: seq<Entry>, b: Byte): seq<char>
    requires |t| == 256
  {
    match t[b]
    case Some(escape) => escape
    case None => [b as char]
  }

  /** Every byte encoded through the table, in order. */
  function Encode(t: seq<Entry>, bytes: seq<Byte>): string
    requires |t| == 256
  {
    if bytes == [] then []
    else Encode(t, bytes[..|bytes| - 1]) + EmitByte(t, bytes[|bytes| - 1])
  }

  /** Encoding one more byte appends what that byte becomes. */
  lemma EncodeNext(t: seq<Entry>, bytes: seq<Byte>, i: nat)
    requires |t| == 256 && i < |bytes|
    ensures Encode(t, bytes[..i + 1]) == Encode(t, bytes[..i]) + EmitByte(t, bytes[i])
  {
    assert bytes[..i + 1][..i] == bytes[..i];
  }

  /** Filter encoding: null stays null, otherwise every byte through the filter table. */
  function FilterEncoding(input: Option<seq<Byte>>): Option<string>
  {
    match input
    case None => None
    case Some(bytes) => Some(Encode(FilterTable(), bytes))
  }

  /**
   * What byte i of a distinguished name becomes. The position rules come
   * first, in this order: a leading space, a leading '#', a trailing space;
   * only then the table.
   */
  function DistinguishedNameByte(
    t: seq<Entry>, bytes: seq<Byte>, i: nat, useInitialCharacterRules: bool, useFinalCharacterRule: bool)
    : seq<char>
    requires |t| == 256 && i < |bytes|
  {
    var b := bytes[i];
    if i == 0 && b == 32 && useInitialCharacterRules then ['\\', ' ']
    else if i == 0 && b == 35 && useInitialCharacterRules then ['\\', '#']
    else if i == |bytes| - 1 && b == 32 && useFinalCharacterRule then ['\\', ' ']
    else EmitByte(t, b)
  }

  /** The encoding of the first k bytes of a distinguished name. */
  function DistinguishedNamePrefix(
    t: seq<Entry>, bytes: seq<Byte>, k: nat, useInitialCharacterRules: bool, useFinalCharacterRule: bool)
    : string
    requires |t| == 256 && k <= |bytes|
  {
    if k == 0 then []
    else
      DistinguishedNamePrefix(t, bytes, k - 1, useInitialCharacterRules, useFinalCharacterRule)
      + DistinguishedNameByte(t, bytes, k - 1, useInitialCharacterRules, useFinalCharacterRule)
  }

  /** Distinguished-name encoding: null stays null, otherwise every byte with its position rules. */
  function DistinguishedNameEncoding(
    input: Option<seq<Byte>>, useInitialCharacterRules: bool, useFinalCharacterRule: bool): Option<string>
  {
    match input
    case None => None
    case Some(bytes) =>
      Some(DistinguishedNamePrefix(DistinguishedNameTable(), bytes, |bytes|, useInitialCharacterRules, useFinalCharacterRule))
  }

  // ---------------------------------------------------------------------
  // Escape lengths: what keeps every write inside the 3 x n buffer
  // ---------------------------------------------------------------------

  /** A table of 256 slots whose escapes are between `lo` and 3 characters long. */
  predicate EscapesBetween(t: seq<Entry>, lo: nat)
  {
    |t| == 256 && forall b :: 0 <= b < 256 && t[b].Some? ==> lo <= |t[b].value| <= 3
  }

  /** Every filter escape is three characters long. */
  lemma FilterEscapeLength()
    ensures EscapesBetween(FilterTable(), 3)
  {
  }

  /** Every distinguished-name escape is two or three characters long. */
  lemma DistinguishedNameEscapeLength()
    ensures EscapesBetween(DistinguishedNameTable(), 2)
  {
  }

  // ---------------------------------------------------------------------
  // The encoders
  // ---------------------------------------------------------------------

  /**
   * Copies s into the buffer from position `length` on, advancing the
   * running index past it: the inner copy loop of both encoders.
   */
  method WriteChars(chars: array<char>, length: nat, s: seq<char>) returns (newLength: nat)
    requires length + |s| <= chars.Length
    modifies chars
    ensures newLength == length + |s|
    ensures chars[..newLength] == old(chars[..length]) + s
  {
    newLength := length;
    for j := 0 to |s|
      invariant newLength == length + j
      invariant chars[..newLength] == old(chars[..length]) + s[..j]
    {
      chars[newLength] := s[j];
      newLength := newLength + 1;
      assert s[..j + 1] == s[..j] + [s[j]];
    }
    assert s[..|s|] == s;
  }

  /**
   * Filter-encodes the input: null and empty come back as they are;
   * otherwise each byte is replaced by its table escape or written as is.
   */
  method FilterEncode(input: Option<seq<Byte>>) returns (r: Option<string>)
    ensures r == FilterEncoding(input)
    ensures input.Some? ==> r.Some? && |input.value| <= |r.value| <= 3 * |input.value|
  {
    if input.None? {
      return None;
    }
    var bytes := input.value;
    if |bytes| == 0 {
      return Some([]);
    }

    var value := InitialiseFilterSafeList();
    FilterEscapeLength();
    var encoded := FilterBytes(value, bytes);
    r := Some(encoded);
  }

  /**
   * The byte walk of the filter encoder over a built table: each byte's
   * escape or the byte itself, written into a buffer three times the
   * input's length.
   */
  method FilterBytes(value: array<Entry>, bytes: seq<Byte>) returns (s: string)
    requires EscapesBetween(value[..], 1)
    ensures s == Encode(value[..], bytes)
    ensures |bytes| <= |s| <= 3 * |bytes|
  {
    ghost var table := value[..];
    var chars := new char[|bytes| * 3];
    var length := 0;

    for i := 0 to |bytes|
      modifies chars
      invariant i <= length <= 3 * i
      invariant chars[..length] == Encode(table, bytes[..i])
    {
      var b := bytes[i];
      if value[b].Some? {
        length := WriteChars(chars, length, value[b].value);
      } else {
        length := WriteChars(chars, length, [b as char]);
      }
      EncodeNext(table, bytes, i);
    }
    assert bytes[..|bytes|] == bytes;
    s := chars[..length];
  }

  /**
   * Distinguished-name-encodes the input: null and empty come back as they
   * are; otherwise each byte gets its position rule or its table entry.
   */
  method DistinguishedNameEncode(
    input: Option<seq<Byte>>, useInitialCharacterRules: bool, useFinalCharacterRule: bool)
    returns (r: Option<string>)
    ensures r == DistinguishedNameEncoding(input, useInitialCharacterRules, useFinalCharacterRule)
    ensures input.Some? ==> r.Some? && |input.value| <= |r.value| <= 3 * |input.value|
  {
    if input.None? {
      return None;
    }
    var bytes := input.value;
    if |bytes| == 0 {
      return Some([]);
    }

    var value := InitialiseDistinguishedNameSafeList();
    DistinguishedNameEscapeLength();
    var encoded := DistinguishedNameBytes(value, bytes, useInitialCharacterRules, useFinalCharacterRule);
    r := Some(encoded);
  }

  /**
   * The byte walk of the distinguished-name encoder over a built table:
   * the position rules first, then the table's escape or the byte itself,
   * written into a buffer three times the input's length.
   */
  method DistinguishedNameBytes(
    value: array<Entry>, bytes: seq<Byte>, useInitialCharacterRules: bool, useFinalCharacterRule: bool)
    returns (s: string)
    requires EscapesBetween(value[..], 1)
    ensures s == DistinguishedNamePrefix(value[..], bytes, |bytes|, useInitialCharacterRules, useFinalCharacterRule)
    ensures |bytes| <= |s| <= 3 * |bytes|
  {
    ghost var table := value[..];
    var chars := new char[|bytes| * 3];
    var length := 0;

    for i := 0 to |bytes|
      modifies chars
      invariant i <= length <= 3 * i
      invariant chars[..length]
             == DistinguishedNamePrefix(table, bytes, i, useInitialCharacterRules, useFinalCharacterRule)
    {
      var b := bytes[i];
      ghost var done := chars[..length];
      ghost var piece := DistinguishedNameByte(table, bytes, i, useInitialCharacterRules, useFinalCharacterRule);
      if i == 0 && b == 32 && useInitialCharacterRules {
        length := WriteChars(chars, length, ['\\', ' ']);
      } else if i == 0 && b == 35 && useInitialCharacterRules {
        length := WriteChars(chars, length, ['\\', '#']);
      } else if i == |bytes| - 1 && b == 32 && useFinalCharacterRule {
        length := WriteChars(chars, length, ['\\', ' ']);
      } else if value[b].Some? {
        length := WriteChars(chars, length, value[b].value);
      } else {
        length := WriteChars(chars, length, [b as char]);
      }
      assert chars[..length] == done + piece;
    }
    s := chars[..length];
  }
}

=== FILE: encoder_examples.dfy ===
/**
 * The examples the library's tests and documentation give for both
 * encoders, proved about the encoding functions. Each example of the
 * form "safe text, one special character, safe text" is proved for all
 * safe texts first and then instantiated.
 *
 * An input string is the UTF-8 encoding the encoders start from: for
 * ASCII text that is one byte per character with the same code
 * (AsciiBytes); the two accented letters of "Lučić" are given as their
 * two-byte UTF-8 forms C4 8D and C4 87.
 */
module EncoderExamples {
  import opened Wrappers
  import opened Hex
  import opened Encoder
  import opened SafeList
  import opened EncoderProperties

  // ---------------------------------------------------------------------
  // ASCII text
  // ---------------------------------------------------------------------

  predicate IsAscii(s: string)
  {
    forall i :: 0 <= i < |s| ==> s[i] as int < 128
  }

  /** The UTF-8 encoding of an ASCII string: one byte per character, with the same code. */
  function AsciiBytes(s: string): (bytes: seq<Byte>)
    requires IsAscii(s)
    ensures |bytes| == |s|
    ensures forall i :: 0 <= i < |s| ==> bytes[i] == s[i] as int
  {
    seq(|s|, i requires 0 <= i < |s| => s[i] as int)
  }

  lemma AsciiBytesConcat(a: string, b: string)
    requires IsAscii(a) && IsAscii(b)
    ensures IsAscii(a + b)
    ensures AsciiBytes(a + b) == AsciiBytes(a) + AsciiBytes(b)
  {
    assert forall i :: 0 <= i < |a + b| ==> (a + b)[i] == if i < |a| then a[i] else b[i - |a|];
  }

  lemma AsciiVerbatim(s: string)
    requires IsAscii(s)
    ensures Verbatim(AsciiBytes(s)) == s
  {
  }

  // ---------------------------------------------------------------------
  // Filter encoding
  // ---------------------------------------------------------------------

  /** ASCII text made only of filter-safe characters. */
  predicate FilterSafeText(s: string)
  {
    forall i :: 0 <= i < |s| ==> s[i] as int < 128 && IsFilterSafe(s[i] as int)
  }

  lemma FilterSafeTextUnchanged(s: string)
    requires FilterSafeText(s)
    ensures IsAscii(s)
    ensures FilterEncoding(Some(AsciiBytes(s))) == Some(s)
  {
    FilterEncodingUnchangedIff(AsciiBytes(s));
    AsciiVerbatim(s);
  }

  lemma FilterEscapedByte(b: Byte)
    requires !IsFilterSafe(b)
    ensures FilterEncoding(Some([b])) == Some(['\\', HexDigit(b / 16, false), HexDigit(b % 16, false)])
  {
    EncodeSingle(FilterTable(), b);
    FilterTableShape(b);
  }

  lemma FilterEscapedChar(c: char)
    requires c as int < 128 && !IsFilterSafe(c as int)
    ensures IsAscii([c])
    ensures FilterEncoding(Some(AsciiBytes([c]))) == Some(['\\', HexDigit(c as int / 16, false), HexDigit(c as int % 16, false)])
  {
    assert AsciiBytes([c]) == [c as int];
    FilterEscapedByte(c as int);
  }

  lemma FilterTextAppend(a: string, b: string, ea: string, eb: string)
    requires IsAscii(a) && IsAscii(b)
    requires FilterEncoding(Some(AsciiBytes(a))) == Some(ea)
    requires FilterEncoding(Some(AsciiBytes(b))) == Some(eb)
    ensures IsAscii(a + b)
    ensures FilterEncoding(Some(AsciiBytes(a + b))) == Some(ea + eb)
  {
    AsciiBytesConcat(a, b);
    FilterEncodingConcat(AsciiBytes(a), AsciiBytes(b));
  }

  /** Parentheses around safe text become \28 and \29; the text is kept. */
  lemma FilterEncodesParentheses(a: string, b: string)
    requires FilterSafeText(a) && FilterSafeText(b)
    ensures IsAscii(a + "(" + b + ")")
    ensures FilterEncoding(Some(AsciiBytes(a + "(" + b + ")"))) == Some(a + "\\28" + b + "\\29")
  {
    FilterSafeTextUnchanged(a);
    FilterEscapedChar('(');
    FilterTextAppend(a, "(", a, "\\28");
    FilterSafeTextUnchanged(b);
    FilterTextAppend(a + "(", b, a + "\\28", b);
    FilterEscapedChar(')');
    FilterTextAppend(a + "(" + b, ")", a + "\\28" + b, "\\29");
  }

  lemma ParenthesesInputSpelling()
    ensures "Parens R Us (for all your parenthetical needs)"
            == "Parens R Us " + "(" + "for all your parenthetical needs" + ")"
  {
  }

  lemma ParenthesesOutputSpelling()
    ensures "Parens R Us \\28for all your parenthetical needs\\29"
            == "Parens R Us " + "\\28" + "for all your parenthetical needs" + "\\29"
  {
  }

  lemma FilterParenthesesExample()
    ensures IsAscii("Parens R Us (for all your parenthetical needs)")
    ensures FilterEncoding(Some(AsciiBytes("Parens R Us (for all your parenthetical needs)")))
            == Some("Parens R Us \\28for all your parenthetical needs\\29")
  {
    FilterEncodesParentheses("Parens R Us ", "for all your parenthetical needs");
    ParenthesesInputSpelling();
    ParenthesesOutputSpelling();
  }

  lemma FilterAsteriskExample()
    ensures IsAscii("*")
    ensures FilterEncoding(Some(AsciiBytes("*"))) == Some("\\2a")
  {
    FilterEscapedChar('*');
  }

  /** A backslash inside safe text becomes \5c; the text around it is kept. */
  lemma FilterEncodesBackslash(a: string, b: string)
    requires FilterSafeText(a) && FilterSafeText(b)
    ensures IsAscii(a + "\\" + b)
    ensures FilterEncoding(Some(AsciiBytes(a + "\\" + b))) == Some(a + "\\5c" + b)
  {
    FilterSafeTextUnchanged(a);
    FilterEscapedChar('\\');
    FilterTextAppend(a, "\\", a, "\\5c");
    FilterSafeTextUnchanged(b);
    FilterTextAppend(a + "\\", b, a + "\\5c", b);
  }

  lemma FilterBackslashExample()
    ensures IsAscii("C:\\MyFile")
    ensures FilterEncoding(Some(AsciiBytes("C:\\MyFile"))) == Some("C:\\5cMyFile")
  {
    FilterEncodesBackslash("C:", "MyFile");
    assert "C:\\MyFile" == "C:" + "\\" + "MyFile";
    assert "C:\\5cMyFile" == "C:" + "\\5c" + "MyFile";
  }

  /**
   * Filter encoding is not idempotent: encoding already-escaped text
   * escapes its backslash again, so "*" encoded twice is "\5c2a", not
   * "\2a". A caller must encode a value exactly once.
   */
  lemma FilterNotIdempotent()
    ensures IsAscii("*") && IsAscii("\\2a")
    ensures FilterEncoding(Some(AsciiBytes("*"))) == Some("\\2a")
    ensures FilterEncoding(Some(AsciiBytes("\\2a"))) == Some("\\5c2a")
    ensures FilterEncoding(Some(AsciiBytes("\\2a"))) != FilterEncoding(Some(AsciiBytes("*")))
  {
    FilterAsteriskExample();
    FilterEncodesBackslash("", "2a");
    assert "\\2a" == "" + "\\" + "2a";
    assert "\\5c2a" == "" + "\\5c" + "2a";
  }

  lemma FilterBinaryEntries()
    ensures FilterTable()[0] == Some("\\00") && FilterTable()[4] == Some("\\04")
  {
    FilterTableShape(0);
    FilterTableShape(4);
  }

  lemma FilterBinaryExample()
    ensures FilterEncoding(Some([0, 0, 0, 4])) == Some("\\00\\00\\00\\04")
  {
    FilterBinaryEntries();
    EncodeBinary(FilterTable(), "\\00", "\\04");
    assert [0, 0, 0, 4] == [0] + [0] + [0] + [4];
    assert "\\00\\00\\00\\04" == "\\00" + "\\00" + "\\00" + "\\04";
  }

  lemma FilterControlCharacterExamples()
    ensures FilterEncoding(Some([0])) == Some("\\00")
    ensures FilterEncoding(Some([0x7F])) == Some("\\7f")
  {
    FilterEscapedByte(0);
    FilterEscapedByte(0x7F);
  }

  lemma FilterAccentedEntries()
    ensures FilterTable()[0xC4] == Some("\\c4") && FilterTable()[0x8D] == Some("\\8d") && FilterTable()[0x87] == Some("\\87")
  {
    FilterTableShape(0xC4);
    FilterTableShape(0x8D);
    FilterTableShape(0x87);
  }

  lemma FilterLetterEntries()
    ensures FilterTable()[76] == None && FilterTable()[117] == None && FilterTable()[105] == None
  {
    FilterTableShape(76);
    FilterTableShape(117);
    FilterTableShape(105);
  }

  lemma FilterAccentedPieces()
    ensures Encode(FilterTable(), [76] + [117] + [0xC4] + [0x8D] + [105] + [0xC4] + [0x87])
            == "L" + "u" + "\\c4" + "\\8d" + "i" + "\\c4" + "\\87"
  {
    FilterLetterEntries();
    FilterAccentedEntries();
    EncodeLucic(FilterTable(), "\\c4", "\\8d", "\\87");
  }

  lemma FilterAccentedSpelling()
    ensures "Lu\\c4\\8di\\c4\\87" == "L" + "u" + "\\c4" + "\\8d" + "i" + "\\c4" + "\\87"
  {
  }

  /** "Lučić": the plain letters are kept, each byte of the two accented letters is escaped. */
  lemma FilterAccentedExample()
    ensures FilterEncoding(Some([76, 117, 0xC4, 0x8D, 105, 0xC4, 0x87])) == Some("Lu\\c4\\8di\\c4\\87")
  {
    FilterAccentedPieces();
    assert [76, 117, 0xC4, 0x8D, 105, 0xC4, 0x87] == [76] + [117] + [0xC4] + [0x8D] + [105] + [0xC4] + [0x87];
    FilterAccentedSpelling();
  }

  /** NUL ( ) \ * and / never come back unchanged from the filter encoder. */
  lemma FilterInjectionCharactersEscaped()
    ensures forall b: Byte :: b in [0, 40, 41, 92, 42, 47] ==> FilterEncoding(Some([b])) != Some([b as char])
  {
    forall b: Byte | b in [0, 40, 41, 92, 42, 47]
      ensures FilterEncoding(Some([b])) != Some([b as char])
    {
      FilterEscapedByte(b);
    }
  }

  // ---------------------------------------------------------------------
  // Distinguished-name encoding
  // ---------------------------------------------------------------------

  /** ASCII text made only of distinguished-name-safe characters. */
  predicate DistinguishedNameSafeText(s: string)
  {
    forall i :: 0 <= i < |s| ==> s[i] as int < 128 && IsDistinguishedNameSafe(s[i] as int)
  }

  lemma DistinguishedNameSafeTextUnchanged(s: string)
    requires DistinguishedNameSafeText(s)
    ensures IsAscii(s)
    ensures Encode(DistinguishedNameTable(), AsciiBytes(s)) == s
  {
    var bytes := AsciiBytes(s);
    forall i | 0 <= i < |bytes| ensures DistinguishedNameTable()[bytes[i]] == None {
      DistinguishedNameTableShape(bytes[i]);
    }
    EncodeVerbatim(DistinguishedNameTable(), bytes);
    AsciiVerbatim(s);
  }

  lemma SafeDistinguishedNameChar(c: char)
    requires c as int < 128 && IsDistinguishedNameSafe(c as int)
    ensures EmitByte(DistinguishedNameTable(), c as int) == [c]
  {
    DistinguishedNameTableShape(c as int);
  }

  /** The bytes of a first character, a middle text and a last character. */
  lemma AsciiFrame(first: char, middle: string, last: char)
    requires first as int < 128 && last as int < 128 && IsAscii(middle)
    ensures IsAscii([first] + middle + [last])
    ensures var bytes := AsciiBytes([first] + middle + [last]);
            bytes[0] == first as int && bytes[|bytes| - 1] == last as int
            && bytes[1..|bytes| - 1] == AsciiBytes(middle)
  {
    var s := [first] + middle + [last];
    assert forall i :: 0 <= i < |s| ==> s[i] == if i == 0 then first else if i <= |middle| then middle[i - 1] else last;
  }

  /** A name whose interior is safe text: only its first and last characters can change. */
  lemma DistinguishedNameOfText(
    first: char, middle: string, last: char, useInitialCharacterRules: bool, useFinalCharacterRule: bool)
    requires first as int < 128 && last as int < 128 && DistinguishedNameSafeText(middle)
    ensures IsAscii([first] + middle + [last])
    ensures DistinguishedNameEncoding(Some(AsciiBytes([first] + middle + [last])), useInitialCharacterRules, useFinalCharacterRule)
            == Some(InitialPiece(first as int, useInitialCharacterRules) + middle + FinalPiece(last as int, useFinalCharacterRule))
  {
    DistinguishedNameSafeTextUnchanged(middle);
    AsciiFrame(first, middle, last);
    DistinguishedNameEnds(AsciiBytes([first] + middle + [last]), useInitialCharacterRules, useFinalCharacterRule);
  }

  lemma LeadingSpacesExample()
    ensures IsAscii("  abcdef")
    ensures DistinguishedNameEncoding(Some(AsciiBytes("  abcdef")), true, true) == Some("\\  abcdef")
    ensures DistinguishedNameEncoding(Some(AsciiBytes("  abcdef")), false, true) == Some("  abcdef")
  {
    DistinguishedNameOfText(' ', " abcde", 'f', true, true);
    DistinguishedNameOfText(' ', " abcde", 'f', false, true);
    SafeDistinguishedNameChar('f');
    SafeDistinguishedNameChar(' ');
    assert "  abcdef" == [' '] + " abcde" + ['f'];
    assert "\\  abcdef" == "\\ " + " abcde" + "f";
    assert "  abcdef" == " " + " abcde" + "f";
  }

  lemma TrailingSpacesExample()
    ensures IsAscii("abcdef  ")
    ensures DistinguishedNameEncoding(Some(AsciiBytes("abcdef  ")), true, true) == Some("abcdef \\ ")
  {
    DistinguishedNameOfText('a', "bcdef ", ' ', true, true);
    SafeDistinguishedNameChar('a');
    assert "abcdef  " == ['a'] + "bcdef " + [' '];
    assert "abcdef \\ " == "a" + "bcdef " + "\\ ";
  }

  lemma LeadingHashesExample()
    ensures IsAscii("##abcdef")
    ensures DistinguishedNameEncoding(Some(AsciiBytes("##abcdef")), true, true) == Some("\\##abcdef")
    ensures DistinguishedNameEncoding(Some(AsciiBytes("##abcdef")), false, true) == Some("##abcdef")
  {
    DistinguishedNameOfText('#', "#abcde", 'f', true, true);
    DistinguishedNameOfText('#', "#abcde", 'f', false, true);
    SafeDistinguishedNameChar('f');
    SafeDistinguishedNameChar('#');
    assert "##abcdef" == ['#'] + "#abcde" + ['f'];
    assert "\\##abcdef" == "\\#" + "#abcde" + "f";
    assert "##abcdef" == "#" + "#abcde" + "f";
  }

  lemma FinalRuleOffExample()
    ensures IsAscii("abcdef# ")
    ensures DistinguishedNameEncoding(Some(AsciiBytes("abcdef# ")), true, false) == Some("abcdef# ")
  {
    DistinguishedNameOfText('a', "bcdef#", ' ', true, false);
    SafeDistinguishedNameChar('a');
    SafeDistinguishedNameChar(' ');
    assert "abcdef# " == ['a'] + "bcdef#" + [' '];
    assert "abcdef# " == "a" + "bcdef#" + " ";
  }

  /** A lone space is both the first and the last byte; the initial rule wins and escapes it once. */
  lemma SingleSpaceExample()
    ensures IsAscii(" ")
    ensures DistinguishedNameEncoding(Some(AsciiBytes(" ")), true, true) == Some("\\ ")
  {
    var t := DistinguishedNameTable();
    assert AsciiBytes(" ") == [32];
    assert DistinguishedNamePrefix(t, [32], 1, true, true) == DistinguishedNameByte(t, [32], 0, true, true);
  }

  lemma DistinguishedNameEscapedByte(b: Byte)
    requires !IsForcedDistinguishedNameCharacter(b) && !IsDistinguishedNameSafe(b)
    ensures Encode(DistinguishedNameTable(), [b]) == ['#', HexDigit(b / 16, true), HexDigit(b % 16, true)]
  {
    EncodeSingle(DistinguishedNameTable(), b);
    DistinguishedNameTableShape(b);
  }

  lemma DistinguishedNameControlCharacterExamples()
    ensures DistinguishedNameEncoding(Some([0]), true, false) == Some("#00")
    ensures DistinguishedNameEncoding(Some([0x7F]), true, false) == Some("#7F")
  {
    DistinguishedNamePlain([0], true, false);
    DistinguishedNamePlain([0x7F], true, false);
    DistinguishedNameEscapedByte(0);
    DistinguishedNameEscapedByte(0x7F);
  }

  lemma ForcedFrontEntries()
    ensures DistinguishedNameTable()[44] == Some("\\,") && DistinguishedNameTable()[43] == Some("\\+")
            && DistinguishedNameTable()[34] == Some("\\\"")
  {
    DistinguishedNameTableShape(44);
    DistinguishedNameTableShape(43);
    DistinguishedNameTableShape(34);
  }

  lemma ForcedBackEntries()
    ensures DistinguishedNameTable()[92] == Some("\\\\") && DistinguishedNameTable()[60] == Some("\\<")
            && DistinguishedNameTable()[62] == Some("\\>") && DistinguishedNameTable()[59] == Some("\\;")
  {
    DistinguishedNameTableShape(92);
    DistinguishedNameTableShape(60);
    DistinguishedNameTableShape(62);
    DistinguishedNameTableShape(59);
  }

  /** The seven forced characters each come back as a backslash and themselves. */
  lemma ForcedCharactersExample()
    ensures IsAscii(",+\"\\<>;")
    ensures DistinguishedNameEncoding(Some(AsciiBytes(",+\"\\<>;")), true, true) == Some("\\,\\+\\\"\\\\\\<\\>\\;")
  {
    var bytes := AsciiBytes(",+\"\\<>;");
    assert bytes == [44] + [43] + [34] + [92] + [60] + [62] + [59];
    DistinguishedNamePlain(bytes, true, true);
    ForcedFrontEntries();
    ForcedBackEntries();
    EncodeForced(DistinguishedNameTable());
    assert "\\,\\+\\\"\\\\\\<\\>\\;" == "\\," + "\\+" + "\\\"" + "\\\\" + "\\<" + "\\>" + "\\;";
  }

  lemma DistinguishedNameAccentedEntries()
    ensures DistinguishedNameTable()[0xC4] == Some("#C4") && DistinguishedNameTable()[0x8D] == Some("#8D")
            && DistinguishedNameTable()[0x87] == Some("#87")
  {
    DistinguishedNameTableShape(0xC4);
    DistinguishedNameTableShape(0x8D);
    DistinguishedNameTableShape(0x87);
  }

  lemma DistinguishedNameLetterEntries()
    ensures DistinguishedNameTable()[76] == None && DistinguishedNameTable()[117] == None
            && DistinguishedNameTable()[105] == None
  {
    DistinguishedNameTableShape(76);
    DistinguishedNameTableShape(117);
    DistinguishedNameTableShape(105);
  }

  lemma DistinguishedNameAccentedPieces()
    ensures Encode(DistinguishedNameTable(), [76] + [117] + [0xC4] + [0x8D] + [105] + [0xC4] + [0x87])
            == "L" + "u" + "#C4" + "#8D" + "i" + "#C4" + "#87"
  {
    DistinguishedNameLetterEntries();
    DistinguishedNameAccentedEntries();
    EncodeLucic(DistinguishedNameTable(), "#C4", "#8D", "#87");
  }

  lemma DistinguishedNameAccentedSpelling()
    ensures "Lu#C4#8Di#C4#87" == "L" + "u" + "#C4" + "#8D" + "i" + "#C4" + "#87"
  {
  }

  /** "Lučić" as a name: the plain letters are kept, each byte of the accented letters becomes #XX. */
  lemma DistinguishedNameAccentedExample()
    ensures DistinguishedNameEncoding(Some([76, 117, 0xC4, 0x8D, 105, 0xC4, 0x87]), true, true) == Some("Lu#C4#8Di#C4#87")
  {
    var bytes: seq<Byte> := [76, 117, 0xC4, 0x8D, 105, 0xC4, 0x87];
    DistinguishedNamePlain(bytes, true, true);
    DistinguishedNameAccentedPieces();
    assert bytes == [76] + [117] + [0xC4] + [0x8D] + [105] + [0xC4] + [0x87];
    DistinguishedNameAccentedSpelling();
  }

  /** & ! | = < > , + - " ' and ; never come back unchanged from the distinguished-name encoder. */
  lemma DistinguishedNameInjectionCharactersEscaped()
    ensures forall b: Byte :: b in [38, 33, 124, 61, 60, 62, 44, 43, 45, 34, 39, 59] ==>
              DistinguishedNameEncoding(Some([b]), true, true) != Some([b as char])
  {
    forall b: Byte | b in [38, 33, 124, 61, 60, 62, 44, 43, 45, 34, 39, 59]
      ensures DistinguishedNameEncoding(Some([b]), true, true) != Some([b as char])
    {
      DistinguishedNameSingleByte(b);
    }
  }

  /**
   * Distinguished-name encoding cannot be read back. The table leaves 'a'
   * alone and escapes the bytes C4 and 8D as "#C4" and "#8D", so the UTF-8
   * bytes of "ač" (61 C4 8D) and the ASCII text "a#C4#8D" encode to the
   * same string: '#' is safe inside a name and is also the escape marker.
   */
  lemma CollisionEntries()
    ensures DistinguishedNameTable()[97] == None && DistinguishedNameTable()[0xC4] == Some("#C4")
            && DistinguishedNameTable()[0x8D] == Some("#8D")
  {
    DistinguishedNameTableShape(97);
    DistinguishedNameTableShape(0xC4);
    DistinguishedNameTableShape(0x8D);
  }

  lemma CollisionSpelling()
    ensures "a#C4#8D" == "a" + "#C4" + "#8D"
  {
  }

  /** The UTF-8 bytes of "ač" (61 C4 8D) encode to "a#C4#8D". */
  lemma CollisionBytes()
    ensures DistinguishedNameEncoding(Some([97, 0xC4, 0x8D]), true, true) == Some("a#C4#8D")
  {
    DistinguishedNamePlain([97, 0xC4, 0x8D], true, true);
    CollisionEntries();
    EncodeThree(DistinguishedNameTable(), 97, 0xC4, 0x8D);
    assert [97, 0xC4, 0x8D] == [97] + [0xC4] + [0x8D];
    CollisionSpelling();
  }

  /** The ASCII text "a#C4#8D" is name-safe and encodes to itself. */
  lemma CollisionText()
    ensures IsAscii("a#C4#8D")
    ensures DistinguishedNameEncoding(Some(AsciiBytes("a#C4#8D")), true, true) == Some("a#C4#8D")
  {
    var text := AsciiBytes("a#C4#8D");
    DistinguishedNamePlain(text, true, true);
    DistinguishedNameSafeTextUnchanged("a#C4#8D");
  }

  /**
   * Distinguished-name encoding cannot be read back: the UTF-8 bytes of
   * "ač" (61 C4 8D) and of the ASCII text "a#C4#8D" are different inputs
   * that encode to the same string, because '#' is safe inside a name and
   * the encoder also uses it for its hex escapes.
   */
  lemma DistinguishedNameEncodingCollision()
    ensures IsAscii("a#C4#8D")
    ensures [97, 0xC4, 0x8D] != AsciiBytes("a#C4#8D")
    ensures DistinguishedNameEncoding(Some([97, 0xC4, 0x8D]), true, true)
            == DistinguishedNameEncoding(Some(AsciiBytes("a#C4#8D")), true, true)
  {
    CollisionBytes();
    CollisionText();
  }

  // ---------------------------------------------------------------------
  // Encoding chains over any table, instantiated above
  // ---------------------------------------------------------------------

  lemma EncodeThree(t: seq<Entry>, x: Byte, y: Byte, z: Byte)
    requires |t| == 256
    ensures Encode(t, [x] + [y] + [z]) == EmitByte(t, x) + EmitByte(t, y) + EmitByte(t, z)
  {
    EncodeSingle(t, x);
    EncodeSingle(t, y);
    EncodeSingle(t, z);
    EncodeConcat(t, [x], [y]);
    EncodeConcat(t, [x] + [y], [z]);
  }

  lemma EncodeBinary(t: seq<Entry>, x00: string, x04: string)
    requires |t| == 256 && t[0] == Some(x00) && t[4] == Some(x04)
    ensures Encode(t, [0] + [0] + [0] + [4]) == x00 + x00 + x00 + x04
  {
    EncodeSingle(t, 0);
    EncodeSingle(t, 4);
    EncodeConcat(t, [0], [0]);
    EncodeConcat(t, [0] + [0], [0]);
    EncodeConcat(t, [0] + [0] + [0], [4]);
  }

  lemma EncodeLucic(t: seq<Entry>, c4: string, x8d: string, x87: string)
    requires |t| == 256
    requires t[76] == None && t[117] == None && t[105] == None
    requires t[0xC4] == Some(c4) && t[0x8D] == Some(x8d) && t[0x87] == Some(x87)
    ensures Encode(t, [76] + [117] + [0xC4] + [0x8D] + [105] + [0xC4] + [0x87])
            == "L" + "u" + c4 + x8d + "i" + c4 + x87
  {
    EncodeSingle(t, 76);
    EncodeSingle(t, 117);
    EncodeSingle(t, 0xC4);
    EncodeSingle(t, 0x8D);
    EncodeSingle(t, 105);
    EncodeSingle(t, 0x87);
    EncodeConcat(t, [76], [117]);
    EncodeConcat(t, [76] + [117], [0xC4]);
    EncodeConcat(t, [76] + [117] + [0xC4], [0x8D]);
    EncodeConcat(t, [76] + [117] + [0xC4] + [0x8D], [105]);
    EncodeConcat(t, [76] + [117] + [0xC4] + [0x8D] + [105], [0xC4]);
    EncodeConcat(t, [76] + [117] + [0xC4] + [0x8D] + [105] + [0xC4], [0x87]);
  }

  lemma EncodeForced(t: seq<Entry>)
    requires |t| == 256
    requires t[44] == Some("\\,") && t[43] == Some("\\+") && t[34] == Some("\\\"")
    requires t[92] == Some("\\\\") && t[60] == Some("\\<") && t[62] == Some("\\>") && t[59] == Some("\\;")
    ensures Encode(t, [44] + [43] + [34] + [92] + [60] + [62] + [59])
            == "\\," + "\\+" + "\\\"" + "\\\\" + "\\<" + "\\>" + "\\;"
  {
    EncodeSingle(t, 44);
    EncodeSingle(t, 43);
    EncodeSingle(t, 34);
    EncodeSingle(t, 92);
    EncodeSingle(t, 60);
    EncodeSingle(t, 62);
    EncodeSingle(t, 59);
    EncodeConcat(t, [44], [43]);
    EncodeConcat(t, [44] + [43], [34]);
    EncodeConcat(t, [44] + [43] + [34], [92]);
    EncodeConcat(t, [44] + [43] + [34] + [92], [60]);
    EncodeConcat(t, [44] + [43] + [34] + [92] + [60], [62]);
    EncodeConcat(t, [44] + [43] + [34] + [92] + [60] + [62], [59]);
  }
}

=== FILE: encoder_properties.dfy ===
/**
 * What the two encodings promise, proved about the functions the encoder
 * methods are verified against: the shape of both tables, the per-byte
 * homomorphism of filter encoding and its inverse, the position rules of
 * distinguished-name encoding, and the examples the library's tests and
 * documentation give.
 */
module EncoderProperties {
  import opened Wrappers
  import opened Hex
  import opened SafeList
  import opened Encoder

  // ---------------------------------------------------------------------
  // Verbatim output
  // ---------------------------------------------------------------------

  /** Each byte written out as the character with that code, as the encoders do for a safe byte. */
  function Verbatim(bytes: seq<Byte>): (s: string)
    ensures |s| == |bytes|
    ensures forall i :: 0 <= i < |bytes| ==> s[i] == bytes[i] as char
  {
    seq(|bytes|, i requires 0 <= i < |bytes| => bytes[i] as char)
  }

  // ---------------------------------------------------------------------
  // The tables
  // ---------------------------------------------------------------------

  /**
   * The filter table leaves exactly the filter-safe bytes verbatim, and
   * escapes every other byte as '\' and its two lower-case hex digits.
   */
  lemma FilterTableShape(b: Byte)
    ensures FilterTable()[b] == None <==> IsFilterSafe(b)
    ensures !IsFilterSafe(b) ==> FilterTable()[b] == Some(['\\', HexDigit(b / 16, false), HexDigit(b % 16, false)])
  {
    if !IsFilterSafe(b) {
      SlashThenHexOfByte(b);
    }
  }

  /**
   * The distinguished-name table: the seven forced characters become '\'
   * and themselves, exactly the safe bytes stay verbatim, and every other
   * byte becomes '#' and its two upper-case hex digits.
   */
  lemma DistinguishedNameTableShape(b: Byte)
    ensures IsForcedDistinguishedNameCharacter(b) ==> DistinguishedNameTable()[b] == Some(['\\', b as char])
    ensures DistinguishedNameTable()[b] == None <==> IsDistinguishedNameSafe(b)
    ensures !IsForcedDistinguishedNameCharacter(b) && !IsDistinguishedNameSafe(b) ==>
              DistinguishedNameTable()[b] == Some(['#', HexDigit(b / 16, true), HexDigit(b % 16, true)])
  {
    if !IsForcedDistinguishedNameCharacter(b) && !IsDistinguishedNameSafe(b) {
      HashThenHexOfByte(b);
    }
  }

  /** A space and '#' are safe in a distinguished name: only the position rules escape them. */
  lemma SpaceAndHashAreDistinguishedNameSafe()
    ensures DistinguishedNameTable()[32] == None && DistinguishedNameTable()[35] == None
  {
    DistinguishedNameTableShape(32);
    DistinguishedNameTableShape(35);
  }

  // ---------------------------------------------------------------------
  // Filter encoding
  // ---------------------------------------------------------------------

  /** Encoding through a table is a homomorphism from byte concatenation to string concatenation. */
  lemma {:induction false} EncodeConcat(t: seq<Entry>, xs: seq<Byte>, ys: seq<Byte>)
    requires |t| == 256
    ensures Encode(t, xs + ys) == Encode(t, xs) + Encode(t, ys)
    decreases |ys|
  {
    if ys == [] {
      assert xs + ys == xs;
    } else {
      var zs := xs + ys;
      var front := ys[..|ys| - 1];
      var last := ys[|ys| - 1];
      assert zs[..|zs| - 1] == xs + front;
      assert zs[|zs| - 1] == last;
      calc {
        Encode(t, zs);
        Encode(t, xs + front) + EmitByte(t, last);
        { EncodeConcat(t, xs, front); }
        Encode(t, xs) + Encode(t, front) + EmitByte(t, last);
        Encode(t, xs) + (Encode(t, front) + EmitByte(t, last));
        Encode(t, xs) + Encode(t, ys);
      }
    }
  }

  /** One byte encodes to what the table says about it. */
  lemma EncodeSingle(t: seq<Entry>, b: Byte)
    requires |t| == 256
    ensures Encode(t, [b]) == EmitByte(t, b)
  {
    assert [b][..0] == [];
  }

  /** Filter encoding of a concatenation is the concatenation of the filter encodings. */
  lemma FilterEncodingConcat(xs: seq<Byte>, ys: seq<Byte>)
    ensures FilterEncoding(Some(xs + ys)) == Some(FilterEncoding(Some(xs)).value + FilterEncoding(Some(ys)).value)
  {
    EncodeConcat(FilterTable(), xs, ys);
  }

  /** A run of bytes the table leaves alone comes out character for character. */
  lemma {:induction false} EncodeVerbatim(t: seq<Entry>, bytes: seq<Byte>)
    requires |t| == 256
    requires forall i :: 0 <= i < |bytes| ==> t[bytes[i]] == None
    ensures Encode(t, bytes) == Verbatim(bytes)
    decreases |bytes|
  {
    if bytes != [] {
      var front := bytes[..|bytes| - 1];
      EncodeVerbatim(t, front);
      assert Verbatim(bytes) == Verbatim(front) + [bytes[|bytes| - 1] as char];
    }
  }

  /** The number of bytes the filter encoder escapes. */
  function FilterEscapedCount(bytes: seq<Byte>): nat
  {
    if bytes == [] then 0
    else FilterEscapedCount(bytes[..|bytes| - 1]) + (if IsFilterSafe(bytes[|bytes| - 1]) then 0 else 1)
  }

  /** A filter encoding is one character per safe byte and three per escaped byte. */
  lemma {:induction false} FilterEncodingLength(bytes: seq<Byte>)
    ensures |Encode(FilterTable(), bytes)| == |bytes| + 2 * FilterEscapedCount(bytes)
    decreases |bytes|
  {
    if bytes != [] {
      FilterEncodingLength(bytes[..|bytes| - 1]);
      FilterTableShape(bytes[|bytes| - 1]);
    }
  }

  /** No byte is escaped exactly when every byte is filter-safe. */
  lemma {:induction false} FilterEscapedCountZero(bytes: seq<Byte>)
    ensures FilterEscapedCount(bytes) == 0 <==> forall i :: 0 <= i < |bytes| ==> IsFilterSafe(bytes[i])
    decreases |bytes|
  {
    if bytes != [] {
      var front := bytes[..|bytes| - 1];
      FilterEscapedCountZero(front);
      assert forall i :: 0 <= i < |front| ==> front[i] == bytes[i];
    }
  }

  /** The filter encoder returns its input unchanged exactly when every byte is filter-safe. */
  lemma FilterEncodingUnchangedIff(bytes: seq<Byte>)
    ensures FilterEncoding(Some(bytes)) == Some(Verbatim(bytes))
            <==> forall i :: 0 <= i < |bytes| ==> IsFilterSafe(bytes[i])
  {
    FilterEncodingLength(bytes);
    FilterEscapedCountZero(bytes);
    if forall i :: 0 <= i < |bytes| ==> IsFilterSafe(bytes[i]) {
      forall i | 0 <= i < |bytes| ensures FilterTable()[bytes[i]] == None {
        FilterTableShape(bytes[i]);
      }
      EncodeVerbatim(FilterTable(), bytes);
    }
  }

  /**
   * Reads a filter encoding back: '\' and two lower-case hex digits stand
   * for the byte they spell; any other character stands for its own code.
   */
  function FilterDecode(s: string): seq<int>
    decreases |s|
  {
    if s == [] then []
    else if s[0] == '\\' && |s| >= 3 && AllHexDigits(s[1..3], false) then [ParseHex(s[1..3])] + FilterDecode(s[3..])
    else [s[0] as int] + FilterDecode(s[1..])
  }

  /** Decoding one byte's filter encoding in front of the rest gives back that byte. */
  lemma FilterDecodeByte(b: Byte, rest: string)
    ensures FilterDecode(EmitByte(FilterTable(), b) + rest) == [b] + FilterDecode(rest)
  {
    var s := EmitByte(FilterTable(), b) + rest;
    FilterTableShape(b);
    if IsFilterSafe(b) {
      assert s[1..] == rest;
    } else {
      var escape := SlashThenHexValueGenerator(b);
      assert escape[1..] == s[1..3];
      assert s[3..] == rest;
    }
  }

  /** Filter encoding loses nothing: decoding it gives back every byte, in order. */
  lemma {:induction false} FilterRoundTrip(bytes: seq<Byte>)
    ensures FilterDecode(Encode(FilterTable(), bytes)) == bytes
    decreases |bytes|
  {
    if bytes != [] {
      var rest := bytes[1..];
      assert bytes == [bytes[0]] + rest;
      EncodeConcat(FilterTable(), [bytes[0]], rest);
      EncodeSingle(FilterTable(), bytes[0]);
      FilterDecodeByte(bytes[0], Encode(FilterTable(), rest));
      FilterRoundTrip(rest);
    }
  }

  /** A string with no backslash decodes to one byte per character, unchanged. */
  lemma {:induction false} FilterDecodeUnescaped(s: string)
    requires forall i :: 0 <= i < |s| ==> s[i] != '\\'
    ensures |FilterDecode(s)| == |s|
    ensures forall i :: 0 <= i < |s| ==> FilterDecode(s)[i] == s[i] as int
    decreases |s|
  {
    if s != [] {
      FilterDecodeUnescaped(s[1..]);
    }
  }

  /**
   * Filter encoding is not idempotent. Reading an encoding back as bytes
   * and encoding it again gives the same string exactly when the first
   * encoding escaped nothing; otherwise the backslash of an escape is
   * itself escaped.
   */
  lemma FilterReencoding(bytes: seq<Byte>, again: seq<Byte>)
    requires |again| == |Encode(FilterTable(), bytes)|
    requires forall k :: 0 <= k < |again| ==> again[k] == Encode(FilterTable(), bytes)[k] as int
    ensures FilterEncoding(Some(again)) == FilterEncoding(Some(bytes))
            <==> forall i :: 0 <= i < |bytes| ==> IsFilterSafe(bytes[i])
  {
    var e := Encode(FilterTable(), bytes);
    FilterEncodingUnchangedIff(bytes);
    FilterEncodingUnchangedIff(again);
    assert Verbatim(again) == e;
    if forall i :: 0 <= i < |bytes| ==> IsFilterSafe(bytes[i]) {
      assert again == bytes;
    } else {
      if forall j :: 0 <= j < |e| ==> e[j] != '\\' {
        FilterDecodeUnescaped(e);
        FilterRoundTrip(bytes);
        FilterEncodingLength(bytes);
        FilterEscapedCountZero(bytes);
        assert false;
      }
      var j :| 0 <= j < |e| && e[j] == '\\';
      assert !IsFilterSafe(again[j]);
    }
  }

  // ---------------------------------------------------------------------
  // Distinguished-name encoding
  // ---------------------------------------------------------------------

  /** With both position rules off, distinguished-name encoding is plain table encoding. */
  lemma {:induction false} DistinguishedNameWithoutRules(t: seq<Entry>, bytes: seq<Byte>, k: nat)
    requires |t| == 256 && k <= |bytes|
    ensures DistinguishedNamePrefix(t, bytes, k, false, false) == Encode(t, bytes[..k])
    decreases k
  {
    if k > 0 {
      DistinguishedNameWithoutRules(t, bytes, k - 1);
      assert bytes[..k][..k - 1] == bytes[..k - 1];
    }
  }

  /** Up to (not including) the last byte, only the first byte is treated by position. */
  lemma {:induction false} DistinguishedNameInterior(
    t: seq<Entry>, bytes: seq<Byte>, k: nat, useInitialCharacterRules: bool, useFinalCharacterRule: bool)
    requires |t| == 256 && 1 <= k < |bytes|
    ensures DistinguishedNamePrefix(t, bytes, k, useInitialCharacterRules, useFinalCharacterRule)
            == DistinguishedNameByte(t, bytes, 0, useInitialCharacterRules, useFinalCharacterRule) + Encode(t, bytes[1..k])
    decreases k
  {
    if k == 1 {
      assert bytes[1..1] == [];
    } else {
      DistinguishedNameInterior(t, bytes, k - 1, useInitialCharacterRules, useFinalCharacterRule);
      assert bytes[1..k][..k - 2] == bytes[1..k - 1];
    }
  }

  /**
   * A distinguished name of two or more bytes is its first byte under the
   * initial rules, the interior bytes through the table alone, and its
   * last byte under the final rule.
   */
  lemma DistinguishedNameStructure(
    t: seq<Entry>, bytes: seq<Byte>, useInitialCharacterRules: bool, useFinalCharacterRule: bool)
    requires |t| == 256 && 2 <= |bytes|
    ensures DistinguishedNamePrefix(t, bytes, |bytes|, useInitialCharacterRules, useFinalCharacterRule)
            == DistinguishedNameByte(t, bytes, 0, useInitialCharacterRules, useFinalCharacterRule)
               + Encode(t, bytes[1..|bytes| - 1])
               + DistinguishedNameByte(t, bytes, |bytes| - 1, useInitialCharacterRules, useFinalCharacterRule)
  {
    DistinguishedNameInterior(t, bytes, |bytes| - 1, useInitialCharacterRules, useFinalCharacterRule);
  }

  /**
   * A one-byte distinguished name with both rules on comes back unchanged
   * exactly when the byte is safe and is neither a space nor '#'.
   */
  lemma DistinguishedNameSingleByte(b: Byte)
    ensures DistinguishedNameEncoding(Some([b]), true, true) == Some([b as char])
            <==> IsDistinguishedNameSafe(b) && b != 32 && b != 35
  {
    var t := DistinguishedNameTable();
    assert DistinguishedNamePrefix(t, [b], 1, true, true) == DistinguishedNameByte(t, [b], 0, true, true);
    DistinguishedNameTableShape(b);
    DistinguishedNameEscapeLength();
    if b != 32 && b != 35 {
      assert DistinguishedNameByte(t, [b], 0, true, true) == EmitByte(t, b);
    }
  }

  /** What the first byte of a name of two or more bytes becomes: the initial rules, then the table. */
  function InitialPiece(b: Byte, useInitialCharacterRules: bool): string
  {
    if useInitialCharacterRules && b == 32 then "\\ "
    else if useInitialCharacterRules && b == 35 then "\\#"
    else EmitByte(DistinguishedNameTable(), b)
  }

  /** What the last byte of a name of two or more bytes becomes: the final rule, then the table. */
  function FinalPiece(b: Byte, useFinalCharacterRule: bool): string
  {
    if useFinalCharacterRule && b == 32 then "\\ "
    else EmitByte(DistinguishedNameTable(), b)
  }

  /**
   * The position rules in the encoder's terms: in a name of two or more
   * bytes the first byte is a leading space, a leading '#' or a table
   * lookup (in that order), the last is a trailing space or a table
   * lookup, and every byte between them is a table lookup.
   */
  lemma DistinguishedNameEnds(bytes: seq<Byte>, useInitialCharacterRules: bool, useFinalCharacterRule: bool)
    requires 2 <= |bytes|
    ensures DistinguishedNameEncoding(Some(bytes), useInitialCharacterRules, useFinalCharacterRule)
            == Some(InitialPiece(bytes[0], useInitialCharacterRules)
                    + Encode(DistinguishedNameTable(), bytes[1..|bytes| - 1])
                    + FinalPiece(bytes[|bytes| - 1], useFinalCharacterRule))
  {
    DistinguishedNameStructure(DistinguishedNameTable(), bytes, useInitialCharacterRules, useFinalCharacterRule);
  }

  /** The prefix form of DistinguishedNamePlain, by induction on the prefix length. */
  lemma {:induction false} DistinguishedNamePlainPrefix(
    bytes: seq<Byte>, useInitialCharacterRules: bool, useFinalCharacterRule: bool, k: nat)
    requires k <= |bytes|
    requires bytes != [] ==> bytes[0] != 32 && bytes[0] != 35 && bytes[|bytes| - 1] != 32
    ensures DistinguishedNamePrefix(DistinguishedNameTable(), bytes, k, useInitialCharacterRules, useFinalCharacterRule)
            == Encode(DistinguishedNameTable(), bytes[..k])
    decreases k
  {
    if k > 0 {
      DistinguishedNamePlainPrefix(bytes, useInitialCharacterRules, useFinalCharacterRule, k - 1);
      assert bytes[..k][..k - 1] == bytes[..k - 1];
    }
  }

  /**
   * The position rules touch nothing else: a name that neither starts with
   * a space or '#' nor ends with a space is encoded through the table
   * alone, whatever the flags.
   */
  lemma DistinguishedNamePlain(bytes: seq<Byte>, useInitialCharacterRules: bool, useFinalCharacterRule: bool)
    requires bytes != [] ==> bytes[0] != 32 && bytes[0] != 35 && bytes[|bytes| - 1] != 32
    ensures DistinguishedNameEncoding(Some(bytes), useInitialCharacterRules, useFinalCharacterRule)
            == Some(Encode(DistinguishedNameTable(), bytes))
  {
    DistinguishedNamePlainPrefix(bytes, useInitialCharacterRules, useFinalCharacterRule, |bytes|);
    assert bytes[..|bytes|] == bytes;
  }
}

=== FILE: hex.dfy ===
/**
 * The number formatting the safe-list generators rely on: the .NET format
 * strings "x2" / "X2" (hexadecimal, at least two digits, lower / upper case)
 * and the invariant-culture decimal rendering of a non-negative value.
 *
 * Every rendering comes with its parser, and the rendering's contract says
 * that parsing it back gives the value again.
 */
module Hex {

  predicate IsHexDigit(c: char, upper: bool)
  {
    ('0' <= c <= '9') || (if upper then 'A' <= c <= 'F' else 'a' <= c <= 'f')
  }

  predicate IsDecimalDigit(c: char)
  {
    '0' <= c <= '9'
  }

  /** The value of one hexadecimal digit of either case. */
  function HexDigitValue(c: char): (d: nat)
    requires IsHexDigit(c, true) || IsHexDigit(c, false)
    ensures d < 16
  {
    if '0' <= c <= '9' then c as int - '0' as int
    else if 'a' <= c <= 'f' then c as int - 'a' as int + 10
    else c as int - 'A' as int + 10
  }

  /** The digit for a nibble, in the requested case. */
  function HexDigit(d: nat, upper: bool): (c: char)
    requires d < 16
    ensures IsHexDigit(c, upper) && HexDigitValue(c) == d
    ensures c == '0' <==> d == 0
  {
    if d < 10 then ('0' as int + d) as char
    else if upper then ('A' as int + d - 10) as char
    else ('a' as int + d - 10) as char
  }

  predicate AllHexDigits(s: seq<char>, upper: bool)
  {
    forall i :: 0 <= i < |s| ==> IsHexDigit(s[i], upper)
  }

  /** Reads a string of hexadecimal digits, most significant first. */
  function ParseHex(s: seq<char>): nat
    requires AllHexDigits(s, true) || AllHexDigits(s, false)
  {
    if s == [] then 0
    else 16 * ParseHex(s[..|s| - 1]) + HexDigitValue(s[|s| - 1])
  }

  /**
   * The shortest hexadecimal rendering of v (the .NET "x" / "X" format):
   * digits of one case, no leading zero, and it reads back as v.
   */
  function HexDigits(v: nat, upper: bool): (s: seq<char>)
    decreases v
    ensures 1 <= |s| && AllHexDigits(s, upper)
    ensures ParseHex(s) == v
    ensures |s| > 1 ==> s[0] != '0'
    ensures v < 16 ==> |s| == 1
    ensures 16 <= v < 256 ==> |s| == 2
  {
    if v < 16 then [HexDigit(v, upper)]
    else
      var hi := HexDigits(v / 16, upper);
      var s := hi + [HexDigit(v % 16, upper)];
      assert s[..|s| - 1] == hi;
      s
  }

  /**
   * The .NET "x2" (upper == false) and "X2" (upper == true) formats:
   * the shortest rendering, padded with '0' to at least two digits.
   */
  function FormatHex2(v: nat, upper: bool): (s: seq<char>)
    ensures 2 <= |s| && AllHexDigits(s, upper)
    ensures ParseHex(s) == v
    ensures v < 256 ==> |s| == 2
    ensures |s| > 2 ==> s[0] != '0'
  {
    var d := HexDigits(v, upper);
    if |d| < 2 then
      var s := ['0'] + d;
      assert s[..|s| - 1] == ['0'];
      assert ParseHex(['0']) == 16 * ParseHex([]) + 0;
      s
    else d
  }

  /** For a byte value the "x2"/"X2" rendering is its high nibble then its low nibble. */
  lemma FormatHex2OfByte(v: nat, upper: bool)
    requires v < 256
    ensures FormatHex2(v, upper) == [HexDigit(v / 16, upper), HexDigit(v % 16, upper)]
  {
    var s := FormatHex2(v, upper);
    if v < 16 {
      assert HexDigits(v, upper) == [HexDigit(v, upper)];
    } else {
      assert HexDigits(v / 16, upper) == [HexDigit(v / 16, upper)];
    }
  }

  function DecimalDigitValue(c: char): (d: nat)
    requires IsDecimalDigit(c)
    ensures d < 10
  {
    c as int - '0' as int
  }

  /** Reads a string of decimal digits, most significant first. */
  function ParseDecimal(s: seq<char>): nat
    requires forall i :: 0 <= i < |s| ==> IsDecimalDigit(s[i])
  {
    if s == [] then 0
    else 10 * ParseDecimal(s[..|s| - 1]) + DecimalDigitValue(s[|s| - 1])
  }

  /**
   * The invariant-culture decimal rendering of a non-negative value:
   * decimal digits, no leading zero, and it reads back as v.
   */
  function DecimalDigits(v: nat): (s: seq<char>)
    decreases v
    ensures 1 <= |s| && forall i :: 0 <= i < |s| ==> IsDecimalDigit(s[i])
    ensures ParseDecimal(s) == v
    ensures |s| > 1 ==> s[0] != '0'
  {
    if v < 10 then [('0' as int + v) as char]
    else
      var hi := DecimalDigits(v / 10);
      var s := hi + [('0' as int + v % 10) as char];
      assert s[..|s| - 1] == hi;
      s
  }
}

=== FILE: ldap_encoder.dfy ===
/**
 * The public facade (LdapEncoder.cs): three entry points that hand their
 * input straight to the encoder. Each states what a caller of the library
 * may rely on: a null input gives a null result, an empty input an empty
 * result, the filter encoding reads back to its input, and a name is
 * changed only where the table or a position rule says so.
 */
module LdapEncoder {
  import opened Wrappers
  import opened Encoder
  import opened EncoderProperties

  /** Encodes a value for use inside an LDAP search filter (RFC 4515, section 3). */
  method FilterEncode(input: Option<seq<Byte>>) returns (r: Option<string>)
    ensures r == FilterEncoding(input)
    ensures r.None? <==> input.None?
    ensures input == Some([]) ==> r == Some([])
    ensures input.Some? ==> FilterDecode(r.value) == input.value
    ensures input.Some? ==>
              (r.value == Verbatim(input.value) <==> forall i :: 0 <= i < |input.value| ==> IsFilterSafe(input.value[i]))
  {
    r := Encoder.FilterEncode(input);
    if input.Some? {
      FilterRoundTrip(input.value);
      FilterEncodingUnchangedIff(input.value);
    }
  }

  /**
   * Encodes a value for use inside a distinguished name (RFC 2253,
   * section 2.4), with both position rules on.
   */
  method DistinguishedNameEncode(input: Option<seq<Byte>>) returns (r: Option<string>)
    ensures r == DistinguishedNameEncoding(input, true, true)
    ensures r.None? <==> input.None?
    ensures input == Some([]) ==> r == Some([])
    ensures input.Some? && 2 <= |input.value| ==>
              r.value == InitialPiece(input.value[0], true)
                         + Encode(DistinguishedNameTable(), input.value[1..|input.value| - 1])
                         + FinalPiece(input.value[|input.value| - 1], true)
  {
    r := DistinguishedNameEncodeWithRules(input, true, true);
  }

  /**
   * Encodes a value for use inside a distinguished name, with the
   * leading-space-and-'#' rules and the trailing-space rule switched by
   * the caller.
   */
  method DistinguishedNameEncodeWithRules(
    input: Option<seq<Byte>>, useInitialCharacterRules: bool, useFinalCharacterRule: bool)
    returns (r: Option<string>)
    ensures r == DistinguishedNameEncoding(input, useInitialCharacterRules, useFinalCharacterRule)
    ensures r.None? <==> input.None?
    ensures input == Some([]) ==> r == Some([])
    ensures input.Some? ==> |input.value| <= |r.value| <= 3 * |input.value|
    ensures input.Some? && 2 <= |input.value| ==>
              r.value == InitialPiece(input.value[0], useInitialCharacterRules)
                         + Encode(DistinguishedNameTable(), input.value[1..|input.value| - 1])
                         + FinalPiece(input.value[|input.value| - 1], useFinalCharacterRule)
    ensures !useInitialCharacterRules && !useFinalCharacterRule && input.Some? ==>
              r.value == Encode(DistinguishedNameTable(), input.value)
  {
    r := Encoder.DistinguishedNameEncode(input, useInitialCharacterRules, useFinalCharacterRule);
    if input.Some? {
      var bytes := input.value;
      if 2 <= |bytes| {
        DistinguishedNameEnds(bytes, useInitialCharacterRules, useFinalCharacterRule);
      }
      DistinguishedNameWithoutRules(DistinguishedNameTable(), bytes, |bytes|);
      assert bytes[..|bytes|] == bytes;
    }
  }
}

=== FILE: safe_list.dfy ===
/**
 * The safe-list table engine (SafeList.cs).
 *
 * A safe list is an array indexed by character value. An entry is either
 * None ("safe": the character is written verbatim) or Some(chars), the
 * escape sequence written instead of the character. A table is seeded by a
 * generator, and then "holes are punched" in it: chosen slots are cleared,
 * which marks those characters safe.
 */
module SafeList {
  import opened Wrappers
  import opened Hex

  /** One slot of a safe list: None is safe, Some(chars) is the escape sequence. */
  type Entry = Option<seq<char>>

  // ---------------------------------------------------------------------
  // Prefixed character arrays and the value generators
  // ---------------------------------------------------------------------

  /** The character array that is `prefix` followed by the characters of `value`. */
  function WithPrefix(value: seq<char>, prefix: char): (r: seq<char>)
    ensures |r| == |value| + 1 && r[0] == prefix
    ensures forall i :: 0 <= i < |value| ==> r[i + 1] == value[i]
  {
    [prefix] + value
  }

  /**
   * Builds the prefixed array slot by slot, as the source does. The
   * wrappers below use the function WithPrefix; this method is its
   * imperative counterpart, proved equal to it.
   */
  method StringToCharArrayWithPrefix(value: seq<char>, prefix: char) returns (r: seq<char>)
    ensures |r| == |value| + 1 && r[0] == prefix
    ensures forall i :: 0 <= i < |value| ==> r[i + 1] == value[i]
    ensures r == WithPrefix(value, prefix)
  {
    var length := |value|;
    var chars := new char[length + 1];
    chars[0] := prefix;
    for i := 0 to length
      invariant chars[0] == prefix
      invariant forall k :: 0 <= k < i ==> chars[k + 1] == value[k]
    {
      chars[i + 1] := value[i];
    }
    r := chars[..];
  }

  function StringToCharArrayWithHashPrefix(value: seq<char>): (r: seq<char>)
    ensures |r| == |value| + 1 && r[0] == '#' && r[1..] == value
  {
    WithPrefix(value, '#')
  }

  function StringToCharArrayWithPercentPrefix(value: seq<char>): (r: seq<char>)
    ensures |r| == |value| + 1 && r[0] == '%' && r[1..] == value
  {
    WithPrefix(value, '%')
  }

  function StringToCharArrayWithSlashPrefix(value: seq<char>): (r: seq<char>)
    ensures |r| == |value| + 1 && r[0] == '\\' && r[1..] == value
  {
    WithPrefix(value, '\\')
  }

  /** '#' then the decimal rendering of the value. */
  function HashThenValueGenerator(value: nat): (r: seq<char>)
    ensures 2 <= |r| && r[0] == '#'
    ensures forall i :: 1 <= i < |r| ==> IsDecimalDigit(r[i])
    ensures ParseDecimal(r[1..]) == value
    ensures |r| > 2 ==> r[1] != '0'
  {
    StringToCharArrayWithHashPrefix(DecimalDigits(value))
  }

  /** '#' then the "X2" rendering of the value: upper-case hexadecimal, at least two digits. */
  function HashThenHexValueGenerator(value: nat): (r: seq<char>)
    ensures 3 <= |r| && r[0] == '#' && AllHexDigits(r[1..], true)
    ensures ParseHex(r[1..]) == value
    ensures value <= 255 ==> |r| == 3
  {
    StringToCharArrayWithHashPrefix(FormatHex2(value, true))
  }

  /** '%' then the "x2" rendering of the value: lower-case hexadecimal, at least two digits. */
  function PercentThenHexValueGenerator(value: nat): (r: seq<char>)
    ensures 3 <= |r| && r[0] == '%' && AllHexDigits(r[1..], false)
    ensures ParseHex(r[1..]) == value
    ensures value <= 255 ==> |r| == 3
  {
    StringToCharArrayWithPercentPrefix(FormatHex2(value, false))
  }

  /** '\' then the "x2" rendering of the value: lower-case hexadecimal, at least two digits. */
  function SlashThenHexValueGenerator(value: nat): (r: seq<char>)
    ensures 3 <= |r| && r[0] == '\\' && AllHexDigits(r[1..], false)
    ensures ParseHex(r[1..]) == value
    ensures value <= 255 ==> |r| == 3
  {
    StringToCharArrayWithSlashPrefix(FormatHex2(value, false))
  }

  /** For a byte value: exactly '\', the high nibble and the low nibble, in lower case. */
  lemma SlashThenHexOfByte(value: nat)
    requires value <= 255
    ensures SlashThenHexValueGenerator(value)
         == ['\\', HexDigit(value / 16, false), HexDigit(value % 16, false)]
  {
    FormatHex2OfByte(value, false);
  }

  /** For a byte value: exactly '#', the high nibble and the low nibble, in upper case. */
  lemma HashThenHexOfByte(value: nat)
    requires value <= 255
    ensures HashThenHexValueGenerator(value)
         == ['#', HexDigit(value / 16, true), HexDigit(value % 16, true)]
  {
    FormatHex2OfByte(value, true);
  }

  // ---------------------------------------------------------------------
  // Generating a table
  // ---------------------------------------------------------------------

  /**
   * A new table of length + 1 slots, slot i holding the generator's value
   * for i. A length below -1 makes the allocation fault in the source.
   */
  method Generate(length: int, generateSafeValue: nat -> seq<char>) returns (table: array<Entry>)
    requires -1 <= length
    ensures fresh(table) && table.Length == length + 1
    ensures forall i :: 0 <= i < table.Length ==> table[i] == Some(generateSafeValue(i))
  {
    table := new Entry[length + 1];
    for i := 0 to length + 1
      invariant forall k :: 0 <= k < i ==> table[k] == Some(generateSafeValue(k))
    {
      table[i] := Some(generateSafeValue(i));
    }
  }

  // ---------------------------------------------------------------------
  // Punching holes
  // ---------------------------------------------------------------------

  /** Every listed position is a slot of a table of n slots. */
  predicate InBounds(positions: seq<int>, n: int)
  {
    forall k :: 0 <= k < |positions| ==> 0 <= positions[k] < n
  }

  /** The table after clearing each listed position in turn, first to last. */
  function Punched(t: seq<Entry>, positions: seq<int>): (r: seq<Entry>)
    requires InBounds(positions, |t|)
    ensures |r| == |t|
    decreases |positions|
  {
    if positions == [] then t
    else Punched(t[positions[0] := None], positions[1..])
  }

  /** Slot i is cleared exactly when it is listed; otherwise it keeps its value. */
  lemma {:induction false} PunchedAt(t: seq<Entry>, positions: seq<int>, i: int)
    requires InBounds(positions, |t|) && 0 <= i < |t|
    ensures Punched(t, positions)[i] == if i in positions then None else t[i]
    decreases |positions|
  {
    if positions != [] {
      PunchedAt(t[positions[0] := None], positions[1..], i);
      assert i in positions <==> i == positions[0] || i in positions[1..];
    }
  }

  /** The safe slots after punching are the safe slots before, plus the listed ones. */
  lemma PunchedSafeSlots(t: seq<Entry>, positions: seq<int>)
    requires InBounds(positions, |t|)
    ensures forall i :: 0 <= i < |t| ==>
      (Punched(t, positions)[i] == None <==> t[i] == None || i in positions)
  {
    forall i | 0 <= i < |t|
      ensures Punched(t, positions)[i] == None <==> t[i] == None || i in positions
    {
      PunchedAt(t, positions, i);
    }
  }

  /** Punching one list after another is punching their concatenation. */
  lemma PunchedConcat(t: seq<Entry>, a: seq<int>, b: seq<int>)
    requires InBounds(a, |t|) && InBounds(b, |t|)
    ensures InBounds(a + b, |t|)
    ensures Punched(Punched(t, a), b) == Punched(t, a + b)
  {
    assert InBounds(a + b, |t|) by {
      forall k | 0 <= k < |a + b| ensures 0 <= (a + b)[k] < |t| {
        if k >= |a| { assert (a + b)[k] == b[k - |a|]; }
      }
    }
    var lhs, rhs := Punched(Punched(t, a), b), Punched(t, a + b);
    forall i | 0 <= i < |t| ensures lhs[i] == rhs[i] {
      PunchedAt(Punched(t, a), b, i);
      PunchedAt(t, a, i);
      PunchedAt(t, a + b, i);
      assert i in a + b <==> i in a || i in b;
    }
  }

  /** Punching the same list twice is punching it once. */
  lemma PunchedIdempotent(t: seq<Entry>, positions: seq<int>)
    requires InBounds(positions, |t|)
    ensures Punched(Punched(t, positions), positions) == Punched(t, positions)
  {
    var once := Punched(t, positions);
    forall i | 0 <= i < |t| ensures Punched(once, positions)[i] == once[i] {
      PunchedAt(once, positions, i);
      PunchedAt(t, positions, i);
    }
  }

  /** The order in which two lists are punched does not matter. */
  lemma PunchedCommute(t: seq<Entry>, a: seq<int>, b: seq<int>)
    requires InBounds(a, |t|) && InBounds(b, |t|)
    ensures Punched(Punched(t, a), b) == Punched(Punched(t, b), a)
  {
    var ab, ba := Punched(Punched(t, a), b), Punched(Punched(t, b), a);
    forall i | 0 <= i < |t| ensures ab[i] == ba[i] {
      PunchedAt(Punched(t, a), b, i);
      PunchedAt(Punched(t, b), a, i);
      PunchedAt(t, a, i);
      PunchedAt(t, b, i);
    }
  }

  /**
   * Clears each listed slot when `needed`, and does nothing otherwise.
   * Positions are not checked: one outside the table faults in the source.
   */
  method PunchHolesIfNeeded(table: array<Entry>, needed: bool, whiteListedCharacters: seq<int>)
    requires needed ==> InBounds(whiteListedCharacters, table.Length)
    modifies table
    ensures !needed ==> table[..] == old(table[..])
    ensures needed ==> table[..] == Punched(old(table[..]), whiteListedCharacters)
    ensures forall i :: 0 <= i < table.Length ==>
      table[i] == if needed && i in whiteListedCharacters then None else old(table[i])
  {
    if needed {
      for k := 0 to |whiteListedCharacters|
        invariant forall i :: 0 <= i < table.Length ==>
          table[i] == if i in whiteListedCharacters[..k] then None else old(table[i])
      {
        assert whiteListedCharacters[..k + 1] == whiteListedCharacters[..k] + [whiteListedCharacters[k]];
        table[whiteListedCharacters[k]] := None;
      }
      assert whiteListedCharacters[..|whiteListedCharacters|] == whiteListedCharacters;
      forall i | 0 <= i < table.Length
        ensures table[..][i] == Punched(old(table[..]), whiteListedCharacters)[i]
      {
        PunchedAt(old(table[..]), whiteListedCharacters, i);
      }
    }
  }

  /** Marks every listed character safe. */
  method PunchSafeList(table: array<Entry>, whiteListedCharacters: seq<int>)
    requires InBounds(whiteListedCharacters, table.Length)
    modifies table
    ensures table[..] == Punched(old(table[..]), whiteListedCharacters)
    ensures forall i :: 0 <= i < table.Length ==>
      table[i] == if i in whiteListedCharacters then None else old(table[i])
  {
    PunchHolesIfNeeded(table, true, whiteListedCharacters);
  }

  // ---------------------------------------------------------------------
  // Punching code charts
  // ---------------------------------------------------------------------

  /**
   * One named Unicode block: the flag that selects it within its super-range
   * and the code points it supplies as safe.
   */
  datatype CodeChart = CodeChart(flag: bv64, points: seq<int>)

  /** One of the five super-ranges: the caller's flags and the range's chart catalog. */
  datatype CodeChartSelection = CodeChartSelection(flags: bv64, charts: seq<CodeChart>)

  /**
   * Whether the caller's flag word selects a chart. The five code-chart
   * enums (Lower, LowerMiddle, Middle, UpperMiddle, Upper) each carry this
   * same test.
   */
  function IsFlagSet(flags: bv64, flagToCheck: bv64): (r: bool)
    ensures r ==> flags != 0 && flagToCheck != 0
    ensures flags & flagToCheck == flagToCheck ==> (r <==> flagToCheck != 0)
    ensures flags & flagToCheck == 0 ==> !r
  {
    flags & flagToCheck != 0
  }

  /** The points of the charts that `flags` selects, chart by chart in catalog order. */
  function EnabledPoints(flags: bv64, charts: seq<CodeChart>): seq<int>
  {
    if charts == [] then []
    else
      var last := charts[|charts| - 1];
      EnabledPoints(flags, charts[..|charts| - 1])
        + (if IsFlagSet(flags, last.flag) then last.points else [])
  }

  /** With no flag set, no chart is selected. */
  lemma {:induction false} EnabledPointsNone(charts: seq<CodeChart>)
    ensures EnabledPoints(0, charts) == []
  {
    if charts != [] {
      EnabledPointsNone(charts[..|charts| - 1]);
    }
  }

  /**
   * What a selection punches. A super-range whose flags are zero is skipped
   * outright; skipping it punches exactly what its charts would have.
   */
  function SelectedPoints(selection: CodeChartSelection): (r: seq<int>)
    ensures r == EnabledPoints(selection.flags, selection.charts)
    ensures selection.flags == 0 ==> r == []
  {
    if selection.flags == 0 then
      EnabledPointsNone(selection.charts);
      []
    else EnabledPoints(selection.flags, selection.charts)
  }

  /** Punches every chart of the catalog whose flag is set, in catalog order. */
  method PunchCodeCharts(table: array<Entry>, codeCharts: bv64, charts: seq<CodeChart>)
    requires InBounds(EnabledPoints(codeCharts, charts), table.Length)
    modifies table
    ensures table[..] == Punched(old(table[..]), EnabledPoints(codeCharts, charts))
  {
    for k := 0 to |charts|
      invariant InBounds(EnabledPoints(codeCharts, charts[..k]), table.Length)
      invariant table[..] == Punched(old(table[..]), EnabledPoints(codeCharts, charts[..k]))
    {
      ghost var before := table[..];
      ghost var done := EnabledPoints(codeCharts, charts[..k]);
      ghost var step := if IsFlagSet(codeCharts, charts[k].flag) then charts[k].points else [];
      assert charts[..k + 1][..k] == charts[..k];
      assert EnabledPoints(codeCharts, charts[..k + 1]) == done + step;
      EnabledPointsPrefixInBounds(codeCharts, charts, k + 1, table.Length);
      assert InBounds(step, table.Length) by {
        forall j | 0 <= j < |step| ensures 0 <= step[j] < table.Length {
          assert (done + step)[|done| + j] == step[j];
        }
      }
      PunchHolesIfNeeded(table, IsFlagSet(codeCharts, charts[k].flag), charts[k].points);
      assert table[..] == Punched(before, step);
      PunchedConcat(old(table[..]), done, step);
    }
    assert charts[..|charts|] == charts;
  }

  /** The points a prefix of the catalog enables are among those the whole catalog enables. */
  lemma {:induction false} EnabledPointsPrefixInBounds(flags: bv64, charts: seq<CodeChart>, k: nat, n: int)
    requires k <= |charts| && InBounds(EnabledPoints(flags, charts), n)
    ensures InBounds(EnabledPoints(flags, charts[..k]), n)
  {
    if k < |charts| {
      var init := charts[..|charts| - 1];
      var all := EnabledPoints(flags, charts);
      var front := EnabledPoints(flags, init);
      assert all == front + (if IsFlagSet(flags, charts[|charts| - 1].flag) then charts[|charts| - 1].points else []);
      assert InBounds(front, n) by {
        forall j | 0 <= j < |front| ensures 0 <= front[j] < n {
          assert all[j] == front[j];
        }
      }
      EnabledPointsPrefixInBounds(flags, init, k, n);
      assert init[..k] == charts[..k];
    } else {
      assert charts[..k] == charts;
    }
  }

  /** All the points the five selections punch, in the order the source punches them. */
  function UnicodePoints(
    lower: CodeChartSelection, lowerMid: CodeChartSelection, mid: CodeChartSelection,
    upperMid: CodeChartSelection, upper: CodeChartSelection): seq<int>
  {
    SelectedPoints(lower) + SelectedPoints(lowerMid) + SelectedPoints(mid)
      + SelectedPoints(upperMid) + SelectedPoints(upper)
  }

  /**
   * Marks the characters of every selected code chart safe, super-range by
   * super-range; a super-range whose flags are zero is skipped outright.
   */
  method PunchUnicodeThrough(
    table: array<Entry>,
    lower: CodeChartSelection, lowerMid: CodeChartSelection, mid: CodeChartSelection,
    upperMid: CodeChartSelection, upper: CodeChartSelection)
    requires InBounds(UnicodePoints(lower, lowerMid, mid, upperMid, upper), table.Length)
    modifies table
    ensures table[..] == Punched(old(table[..]), UnicodePoints(lower, lowerMid, mid, upperMid, upper))
    ensures (lower.flags == 0 && lowerMid.flags == 0 && mid.flags == 0
             && upperMid.flags == 0 && upper.flags == 0) ==> table[..] == old(table[..])
  {
    ghost var all := UnicodePoints(lower, lowerMid, mid, upperMid, upper);
    ghost var p1, p2, p3, p4, p5 :=
      SelectedPoints(lower), SelectedPoints(lowerMid), SelectedPoints(mid),
      SelectedPoints(upperMid), SelectedPoints(upper);
    assert all == p1 + p2 + p3 + p4 + p5;
    InBoundsSplit(p1 + p2 + p3 + p4, p5, table.Length);
    InBoundsSplit(p1 + p2 + p3, p4, table.Length);
    InBoundsSplit(p1 + p2, p3, table.Length);
    InBoundsSplit(p1, p2, table.Length);

    ghost var t := old(table[..]);
    if lower.flags != 0 {
      PunchCodeCharts(table, lower.flags, lower.charts);
    }
    assert table[..] == Punched(t, p1);
    if lowerMid.flags != 0 {
      PunchCodeCharts(table, lowerMid.flags, lowerMid.charts);
    }
    PunchedConcat(t, p1, p2);
    if mid.flags != 0 {
      PunchCodeCharts(table, mid.flags, mid.charts);
    }
    PunchedConcat(t, p1 + p2, p3);
    if upperMid.flags != 0 {
      PunchCodeCharts(table, upperMid.flags, upperMid.charts);
    }
    PunchedConcat(t, p1 + p2 + p3, p4);
    if upper.flags != 0 {
      PunchCodeCharts(table, upper.flags, upper.charts);
    }
    PunchedConcat(t, p1 + p2 + p3 + p4, p5);
  }

  lemma InBoundsSplit(a: seq<int>, b: seq<int>, n: int)
    requires InBounds(a + b, n)
    ensures InBounds(a, n) && InBounds(b, n)
  {
    forall k | 0 <= k < |a| ensures 0 <= a[k] < n { assert (a + b)[k] == a[k]; }
    forall k | 0 <= k < |b| ensures 0 <= b[k] < n { assert (a + b)[|a| + k] == b[k]; }
  }
}

=== FILE: wrappers.dfy ===
/** The Some/None datatype that stands in for a nullable reference. */
module Wrappers {

  datatype Option<+T> = None | Some(value: T)
}
